=== FILE: README.md ===
# Attendance reconciliation engine — Dafny model

This project models the batch reconciliation core of the attendance back end.
Field devices work offline. They later push two kinds of batches:

- worker records, which are upserted by their external id (`worker_id`);
- attendance punches, which are appended to an event log that references
  workers by their internal primary key.

The back end also serves the single-worker create/update/lookup endpoints and a
filtered, newest-first attendance query.

The model treats the database as a value, `Storage.Store`:

- the `workers` table is a sequence in primary-key order;
- the `attendance` log is a sequence in insertion order.

Every handler is a pure function from a store and a decoded JSON request
(`PyValue.Json`, where a dict is a map, so an absent key differs from a key
bound to `null`) to the store after its commit and the reply it sends. The
Python semantics the handlers lean on are written out:

- truthiness (`not x`);
- `dict.get` and the `AttributeError` it raises on a non-dict;
- the `in` operator on dicts, lists and strings;
- `d[k]`;
- `str()` of scalars in f-strings;
- how SQLite (the configured database) stores a bound value in a text column:
  a string (of Unicode scalar values) as itself, an integer of SQLite's signed 64-bit range as its
  decimal text, a boolean as 1/0, `None` as NULL, and a list, a dict or a
  wider integer not at all (the driver raises).

The store invariant `Storage.Valid` says:

- primary keys are positions counted from one;
- external ids are unique;
- every event's foreign key names a stored worker.

Every handler is proved to preserve it.

Modules:

- `Wrappers`: `Option`.
- `PyValue`: decoded JSON values, and the Python operators and `str()`
  rendering the handlers use.
- `WorkerModel` and `AttendanceModel`: the two row types and their `to_dict`
  projections.
- `Storage`: SQLite text binding, the store, its invariant, and the lookups
  by external id and by primary key.
- `WorkerRoutes`: the bulk upsert fold, create, partial update, and the two
  worker lookups.
- `SyncService`: the attendance sync fold.
- `AttendanceRoutes`: the sync request guard and the attendance query.
- `Scenarios`: worked examples of both batch operations on concrete requests.

## Model

| member | source | states |
|---|---|---|
| PyValue.Contains | python-backend/backend/routes/attendance.py:13 | `key in v` is membership for a dict, element test for a list, substring test for a string, and raises on numbers, booleans and `None` |
| PyValue.Index | python-backend/backend/routes/attendance.py:16 | `v[key]` answers only for a dict holding the key; every other case raises |
| PyValue.NatTextRoundTrip | python-backend/backend/routes/workers.py:86 | the item index printed into an error message reads back as that index |
| PyValue.IntTextInjective | python-backend/backend/services/sync_service.py:23 | distinct integer ids print differently, so a numeric reference in an error message identifies the id |
| Storage.BindText | python-backend/backend/models/worker.py:9-12 | a value bound to a text column is NULL exactly for `None`; it fails exactly for lists, dicts and integers outside the signed 64-bit range; strings are kept, in-range integers become their decimal text and booleans 1 or 0 |
| Storage.PrintedRefIsBoundKey | python-backend/backend/services/sync_service.py:21-23 | the `worker_id` an f-string prints is the key the lookup bound when it is a string or an integer, and differs from it when it is a boolean |
| Storage.FindExt | python-backend/backend/routes/workers.py:89 | `filter_by(worker_id=k).first()` finds the first row with that external id, and finds nothing exactly when no row has it |
| Storage.FindId | python-backend/backend/routes/workers.py:17 | the primary-key lookup finds a row with that key, and finds nothing exactly when none has it |
| Storage.FindExtUnique | python-backend/backend/models/worker.py:9 | with `worker_id` unique, the lookup by external id returns the one row carrying it |
| Storage.FindIdPosition | python-backend/backend/models/worker.py:8 | with primary keys counted from one, the row with key `id` is the `id`-th row, and no other key is found |
| WorkerModel.WorkerToDict | python-backend/backend/models/worker.py:18-26 | `to_dict` has exactly the keys id, worker_id, name, email, phone and created_at, never the fingerprint; it passes the columns through, a null email or phone stays null, and created_at is null exactly when unset and otherwise its `isoformat()` |
| WorkerModel.WorkerToDictExact | python-backend/backend/models/worker.py:18-26 | given an injective `isoformat`, two rows give the same dict exactly when they differ at most in the fingerprint |
| AttendanceModel.EventToDict | python-backend/backend/models/attendance.py:15-23 | `to_dict` has exactly the six keys, passes id, the foreign key, event_type and location through (null stays null), always renders the NOT NULL timestamp, and synced_at is null exactly when unset and otherwise its `isoformat()` |
| AttendanceModel.EventToDictInjective | python-backend/backend/models/attendance.py:15-23 | given an injective `isoformat`, distinct events give distinct dicts |
| WorkerRoutes.FaceOf | python-backend/backend/routes/workers.py:90 | the fingerprint column asked for is null exactly when `face_encoding` is absent or null |
| WorkerRoutes.NewRow | python-backend/backend/routes/workers.py:100-110 | a created row gets the next key, the item's external id, its bound name, email and phone, its fingerprint or null, and the creation time |
| WorkerRoutes.Overwrite | python-backend/backend/routes/workers.py:92-99 | an upsert-update always overwrites name, email and phone, and an absent email or phone becomes null; the fingerprint changes only if the key is sent, and a null there clears it; key, external id and creation time stay |
| WorkerRoutes.Message | python-backend/backend/routes/workers.py:86 | every per-item error text starts with `Item {idx}: ` |
| WorkerRoutes.UpsertItem | python-backend/backend/routes/workers.py:82-112 | each item adds exactly one of a creation, an update or an error. A non-dict item appends the `get` error, a dict without a truthy worker_id or name appends the missing-fields error, and a worker_id the lookup cannot bind appends the driver's error; each changes nothing else. An existing external id overwrites that row in place and adds none. A fresh one appends exactly one row. The request fails only when a written value cannot be bound |
| WorkerRoutes.UpsertItemKeepsValid | python-backend/backend/models/worker.py:8-9 | an upsert step keeps keys positional and external ids unique |
| WorkerRoutes.UpsertItems | python-backend/backend/routes/workers.py:81-112 | `created + updated + len(errors)` equals the number of items; the table grows by `created` rows; prior rows keep key and external id; the log is untouched; errors are in item order; the invariant is kept |
| WorkerRoutes.BodyOrEmpty | python-backend/backend/routes/workers.py:72 | `request.get_json() or {}` keeps a truthy body and reads a null or falsy one (false, 0, "", [], {}) as the empty dict |
| WorkerRoutes.PayloadItems | python-backend/backend/routes/workers.py:73-74 | there are items exactly when `workers` is a non-empty list, and they are that list's elements |
| WorkerRoutes.BulkUpsert | python-backend/backend/routes/workers.py:70-115 | a missing, empty or non-list payload is refused before any item is processed and leaves the store unchanged; a request fails exactly when the body is not a dict or a written value cannot be bound; otherwise the reply is the fold's own counters and errors, and the store is the fold's |
| WorkerRoutes.ItemError | python-backend/backend/routes/workers.py:83-89 | an item raises its own error before any write exactly when it is not accepted; the error carries its index and its kind follows the handler's checks: not a dict, then missing fields, then a lookup that cannot bind |
| WorkerRoutes.UpsertErrorsAreItemErrors | python-backend/backend/routes/workers.py:81-112 | a batch's errors are exactly the errors its items raise, in item order, whatever the store |
| WorkerRoutes.UpsertErrorsIgnoreStore | python-backend/backend/routes/workers.py:81-112 | whether a batch commits, and the errors it reports, depend neither on the store nor on the clock |
| WorkerRoutes.UpsertStoresEveryKey | python-backend/backend/routes/workers.py:89-110 | after a batch, every stored item's external id is present in the table |
| WorkerRoutes.UpsertKnownKeysCreateNothing | python-backend/backend/routes/workers.py:89-99 | items whose external ids are all already stored never add a row |
| WorkerRoutes.UpsertAgainOnlyUpdates | python-backend/backend/routes/workers.py:81-112 | re-submitting a batch creates nothing, updates every item the first run stored, and reports the same errors |
| WorkerRoutes.UpsertIsolatesOneBadItem | python-backend/backend/routes/workers.py:85-87 | when item k lacks its worker_id and the rest can be stored, the only error is item k's, and all N−1 other items are created or updated, wherever k is |
| WorkerRoutes.CreateWorker | python-backend/backend/routes/workers.py:21-46 | a null or non-dict body fails at `data.get`; a dict body without truthy worker_id or name, or with an external id already stored, is refused without writing; otherwise exactly one row is appended with the body's fields |
| WorkerRoutes.CreateTwiceRejects | python-backend/backend/routes/workers.py:27-29 | the same body creates once, and is then refused as a duplicate |
| WorkerRoutes.ReadPatch | python-backend/backend/routes/workers.py:57-64 | for a dict body, each of the four columns is read exactly when its key is present; a list or string body reads only when it holds none of the four keys, and then as the empty patch, and otherwise `data[key]` raises |
| WorkerRoutes.ApplyPatch | python-backend/backend/routes/workers.py:57-64 | a column changes only when its key was sent; a null fingerprint clears it; identity columns never change |
| WorkerRoutes.UpdateWorkerByExtId | python-backend/backend/routes/workers.py:49-67 | not found exactly when the external id is unknown; otherwise only that row changes, and only in the columns whose keys are present; a body the handler cannot read or a null name fails the request and leaves the store as it was; a truthy non-dict body that holds none of the keys replies with the row and changes nothing |
| WorkerRoutes.GetWorkers | python-backend/backend/routes/workers.py:9-12 | one `to_dict` per stored worker, in key order |
| WorkerRoutes.GetWorkersDistinct | python-backend/backend/routes/workers.py:9-12 | the listed external ids are pairwise distinct |
| WorkerRoutes.GetWorker | python-backend/backend/routes/workers.py:15-18 | the `to_dict` of the row with that key, or not found exactly when no row has it |
| WorkerRoutes.CreatedWorkerIsFound | python-backend/backend/routes/workers.py:15-46 | a worker just created is served under the key it was given |
| SyncService.Message | python-backend/backend/services/sync_service.py:21-30 | the unknown-worker and bad-timestamp messages hold the reference at a fixed place, so it can be read back from the text |
| SyncService.MessageNamesWorker | python-backend/backend/services/sync_service.py:23-29 | equal unknown-worker (or bad-timestamp) messages name the same reference, and the two kinds of message never coincide |
| SyncService.ReportedRefIsLookupKey | python-backend/backend/services/sync_service.py:16-29 | the reference an unknown-worker or bad-timestamp error reports is the key the worker was looked up under, exactly when `worker_id` is not a boolean |
| SyncService.ParseTimestamp | python-backend/backend/services/sync_service.py:26-30 | a string timestamp gives exactly what `fromisoformat` gives it; a missing or non-string one counts as unparseable |
| SyncService.NewEvent | python-backend/backend/services/sync_service.py:32-38 | the new event gets the next key, the resolved worker's internal id, the parsed time, the event type and location as sent, and the sync time |
| SyncService.SyncRecord | python-backend/backend/services/sync_service.py:15-43 | each record either appends one event or adds one error. The checks run in source order: not a dict, falsy worker_id, a worker_id the lookup cannot bind (the driver's error), unknown worker (before the timestamp), unparseable timestamp. The worker table is only read |
| SyncService.SyncRecordKeepsValid | python-backend/backend/models/attendance.py:9 | an appended event's foreign key names a stored worker, and its key is the next one |
| SyncService.SyncRecords | python-backend/backend/services/sync_service.py:5-46 | `synced + len(errors)` equals the number of records; the worker table is unchanged; the log grows by exactly `synced` events, each synced now, and prior events are unchanged; the invariant is kept |
| SyncService.SyncDuplicatesAreKept | python-backend/backend/services/sync_service.py:32-41 | no deduplication: the same record twice yields two events with the same worker, timestamp, type and location. Within one request the model reads the clock once, so here they differ only in their key; the source reads `utcnow()` per record, so their `synced_at` may differ too |
| AttendanceRoutes.Rejects | python-backend/backend/routes/attendance.py:13 | a missing or falsy body (null, false, 0, "", [], {}) and a dict without `records` are refused; a truthy number or boolean makes the `in` test raise; a truthy list or string is refused exactly when it does not contain `records` |
| AttendanceRoutes.Iterate | python-backend/backend/services/sync_service.py:14 | `for record in records` runs over a list's elements, a string's one-character strings, and one string per dict key, and fails only on values that are not iterable |
| AttendanceRoutes.SyncAttendance | python-backend/backend/routes/attendance.py:10-18 | the request is refused exactly when `not data or 'records' not in data` holds, and fails when that guard or `data['records']` raises, both with the store unchanged; for a dict with `records` of any kind, the reply is exactly the count and errors of the sync fold over what iterating `records` yields, and its store |
| AttendanceRoutes.CriteriaOf | python-backend/backend/routes/attendance.py:23-36 | a parameter filters exactly when it is present and non-empty; the worker filter is the internal key the text converts to; an unreadable date bound fails the request |
| AttendanceRoutes.Select | python-backend/backend/routes/attendance.py:27-36 | each event occurs as often as in the log if it matches every filter, and otherwise not at all |
| AttendanceRoutes.SortNewestFirst | python-backend/backend/routes/attendance.py:38 | the output is ordered newest-first and is a permutation of the input |
| AttendanceRoutes.GetAttendance | python-backend/backend/routes/attendance.py:21-39 | the result is newest-first and holds exactly the matching events of the log, each as often as logged |
| AttendanceRoutes.GetAttendanceExact | python-backend/backend/routes/attendance.py:29-36 | every returned event has the requested internal worker key and lies within both inclusive bounds, and every matching logged event is returned |
| AttendanceRoutes.GetAttendanceUnfiltered | python-backend/backend/routes/attendance.py:27-38 | with no filter the query returns the whole log, reordered |
| AttendanceRoutes.RowsJson | python-backend/backend/routes/attendance.py:39 | one `to_dict` per returned event, in result order |
| Scenarios.UpsertThenRename | python-backend/backend/routes/workers.py:70-115 | upserting W1 as "Ana" creates it; upserting it again as "Ana Garcia" updates it, and the row then holds the new name |
| Scenarios.SyncKnownAndGhost | python-backend/backend/services/sync_service.py:14-41 | syncing a punch for W1 and one for GHOST stores one event, referencing W1's row, and reports GHOST as not found |
| Scenarios.SyncBadTimestamp | python-backend/backend/services/sync_service.py:26-30 | a punch with an unreadable timestamp is rejected with no event, and the valid punch beside it is still stored |

## Left out

- Transactions and concurrency: each request is one atomic step over one store
  value.
  - Two concurrent batches racing on the unique external id are not modelled.
  - A failed commit is modelled as "nothing written" plus a failed reply.
  - After a lookup whose external id cannot be bound (a list, a dict or an
    integer outside the signed 64-bit range as `worker_id`), the session is assumed to stay usable for the remaining items.
- HTTP framing: status codes and `jsonify` become reply constructors.
  - `request.get_json()` is an `Option<Json>` in which None means a JSON
    `null` body.
  - A body that is not JSON at all is rejected by the framework before the
    handlers run, and is not modelled.
- Floating-point numbers: JSON numbers are integers.
  - A float `worker_id`, name or timestamp is not modelled.
  - Fingerprint vectors (lists of floats) are opaque values, wrapped as
    `Dumps(source)`.
- `datetime.utcnow`, `datetime.fromisoformat` and `isoformat`:
  - the clock is the parameter `now`, one instant per request;
  - parsing is the partial function `parse`;
  - rendering is the function `iso`;
  - the store's conversion of a query-string `worker_id` to an integer is
    `toInt`.
- Timestamps are integers ordered as time.
  - Time zones are not modelled.
  - The string form SQLite stores datetimes in, and compares them by, is not
    modelled.
- Column lengths (`String(50)`, `String(100)`, …): SQLite does not enforce
  them, so the model does not either.
- Iteration over a dict or a string given as `records`: every such record is a
  string, and the fold treats every string alike. So a dict's keys are stood in
  for by empty strings, and the error texts name the type `str` in both cases.
- Sort ties in the attendance query: SQL leaves the order among equal
  timestamps open, and `AttendanceRoutes.SortNewestFirst` keeps log order
  among them.
- `get_workers` without an ORDER BY clause: rows are listed in primary-key
  order, which is SQLite's rowid order for this table.
- python-backend/backend/services/face_service.py: image decoding and face
  encodings are foreign, numeric code. The handlers only store an encoding the
  client already computed. face_service.py is not part of this model.
- python-backend/backend/app.py: application set-up and configuration. Only
  its choice of SQLite (line 9) is used, for the column conversions.
- Behaviour one might expect from the system's purpose but that the code does
  not have; the model follows the code:
  - the attendance query's `worker_id` filter compares against the internal
    foreign key, not the external id;
  - the bulk upsert never computes a fingerprint from an image, and stores
    only the value the client sends;
  - a second identical create is refused rather than treated as an update.
- Storage.BindText: strings that hold a lone UTF-16 surrogate (which
  `request.get_json()` can decode from `"\ud800"`) are not modelled, because a
  Dafny string holds only Unicode scalar values. SQLite's driver cannot encode
  such a string: as a `worker_id` it gives the lookup error, and as a written
  value it fails the request.
- AttendanceModel.EventToDict: the `if self.timestamp else None` branch of
  `to_dict` is not modelled, because the timestamp column is NOT NULL and a
  stored datetime is always truthy.
- WorkerRoutes.GetWorker: takes a non-negative key, because the `<int:...>`
  route converter only matches digits.

=== FILE: attendance_model.dfy ===
/** The `attendance` table row and its `to_dict` projection
    (python-backend/backend/models/attendance.py). */
module AttendanceModel {
  import opened Wrappers
  import opened PyValue
  import opened WorkerModel

  /** One row of `attendance`. `workerRef` is the NOT NULL foreign key to a
      worker's internal id and `timestamp` the NOT NULL event time, so
      neither is optional; `syncedAt` is a nullable column. */
  datatype Event = Event(
    id: int,
    workerRef: int,
    timestamp: int,
    eventType: Option<string>,
    location: Option<string>,
    syncedAt: Option<int>)

  /** The keys `Attendance.to_dict` emits. */
  const EventKeys: set<string> := {"id", "worker_id", "timestamp", "event_type", "location", "synced_at"}

  /** `Attendance.to_dict`: the foreign key is emitted under `worker_id`; a
      missing `synced_at` becomes null. The timestamp column cannot be null,
      so it is always rendered. */
  function EventToDict(e: Event, iso: int -> string): (r: Json)
    ensures r.JObj? && r.fields.Keys == EventKeys
    ensures r.fields["id"] == JNum(e.id) && r.fields["worker_id"] == JNum(e.workerRef)
    ensures r.fields["timestamp"] == JStr(iso(e.timestamp))
    ensures r.fields["event_type"] == JNull <==> e.eventType.None?
    ensures e.eventType.Some? ==> r.fields["event_type"] == JStr(e.eventType.value)
    ensures r.fields["location"] == JNull <==> e.location.None?
    ensures e.location.Some? ==> r.fields["location"] == JStr(e.location.value)
    ensures r.fields["synced_at"] == JNull <==> e.syncedAt.None?
    ensures e.syncedAt.Some? ==> r.fields["synced_at"] == JStr(iso(e.syncedAt.value))
  {
    JObj(map[
      "id" := JNum(e.id),
      "worker_id" := JNum(e.workerRef),
      "timestamp" := JStr(iso(e.timestamp)),
      "event_type" := TextOrNull(e.eventType),
      "location" := TextOrNull(e.location),
      "synced_at" := TimeOrNull(e.syncedAt, iso)])
  }

  /** With an injective `isoformat`, the projection loses nothing: distinct
      events give distinct dicts. */
  lemma EventToDictInjective(a: Event, b: Event, iso: int -> string)
    requires forall x, y :: iso(x) == iso(y) ==> x == y
    ensures EventToDict(a, iso) == EventToDict(b, iso) <==> a == b
  {
  }
}

=== FILE: attendance_routes.dfy ===
/** The attendance endpoints (python-backend/backend/routes/attendance.py):
    the batch-level guard in front of `sync_records`, and the filtered,
    newest-first query over the log. */
module AttendanceRoutes {
  import opened Wrappers
  import opened PyValue
  import opened AttendanceModel
  import opened Storage
  import opened SyncService

  // ---------------------------------------------------------------------
  // Sync

  /** The outcome of `sync_attendance`. */
  datatype SyncReply = NoRecords | Synced(count: nat, errors: seq<SyncError>) | SyncFailed

  /** The guard `not data or 'records' not in data`. None where evaluating it
      raises (the `in` operator on a number or boolean). */
  function Rejects(data: Option<Json>): (r: Option<bool>)
    ensures data.None? ==> r == Some(true)
    ensures data.Some? && data.value.JObj? ==> r == Some(|data.value.fields| == 0 || "records" !in data.value.fields)
    // every falsy body is refused; `in` raises on a truthy number or boolean
    ensures data.Some? && !Truthy(data.value) ==> r == Some(true)
    ensures r.None? <==> data.Some? && Truthy(data.value) && Contains(data.value, "records").None?
    ensures data.Some? && Truthy(data.value) && Contains(data.value, "records").Some? ==>
      r == Some(!Contains(data.value, "records").value)
  {
    if data.None? || !Truthy(data.value) then Some(true)
    else match Contains(data.value, "records")
      case None => None
      case Some(present) => Some(!present)
  }

  /** `for record in records`: a list yields its elements, a string its
      one-character strings and a dict its keys; anything else is not
      iterable. A dict's keys are all strings, and the fold treats every
      string record alike, so they are stood in for by empty strings. */
  function Iterate(v: Json): (r: Option<seq<Json>>)
    ensures v.JArr? ==> r == Some(v.elems)
    ensures v.JStr? ==> r.Some? && |r.value| == |v.s| && forall i :: 0 <= i < |v.s| ==> r.value[i] == JStr([v.s[i]])
    ensures v.JObj? ==> r.Some? && |r.value| == |v.fields| && forall x :: x in r.value ==> x.JStr?
    ensures r.None? <==> !(v.JArr? || v.JStr? || v.JObj?)
  {
    match v
    case JArr(xs) => Some(xs)
    case JStr(s) => Some(seq(|s|, i requires 0 <= i < |s| => JStr([s[i]])))
    case JObj(m) => Some(seq(|m|, _ => JStr("")))
    case _ => None
  }

  /** `sync_attendance`: a missing body or `records` key is refused before
      any record is processed; otherwise the reply reports exactly the count
      and errors of `sync_records`, and the store is the one it committed. */
  function SyncAttendance(s: Store, data: Option<Json>, parse: string -> Option<int>, now: int): (r: (Store, SyncReply))
    ensures !r.1.Synced? ==> r.0 == s
    ensures data.None? ==> r.1 == NoRecords
    ensures data.Some? && data.value.JObj? && "records" !in data.value.fields ==> r.1 == NoRecords
    ensures r.1.NoRecords? <==> Rejects(data) == Some(true)
    // evaluating the guard raises (a number or boolean body)
    ensures Rejects(data).None? ==> r == (s, SyncFailed)
    // a truthy list or string body without "records" passes the guard, and `data['records']` raises
    ensures Rejects(data) == Some(false) && !data.value.JObj? ==> r == (s, SyncFailed)
    // whatever `records` is, the loop runs over what iterating it yields
    ensures data.Some? && data.value.JObj? && "records" in data.value.fields ==>
      match Iterate(data.value.fields["records"])
      case None => r == (s, SyncFailed)
      case Some(recs) =>
        var result := SyncRecords(s, recs, parse, now);
        && (result.None? ==> r == (s, SyncFailed))
        && (result.Some? ==> r == (result.value.store, Synced(result.value.synced, result.value.errors)))
    ensures r.1.Synced? ==> data.Some? && data.value.JObj? && "records" in data.value.fields
    ensures r.1.Synced? ==> r.0.workers == s.workers && |r.0.log| == |s.log| + r.1.count && r.0.log[..|s.log|] == s.log
    ensures Valid(s) ==> Valid(r.0)
  {
    match Rejects(data)
    case None => (s, SyncFailed)
    case Some(refused) =>
      if refused then (s, NoRecords)
      else match Index(data.value, "records")
        case None => (s, SyncFailed)
        case Some(v) =>
          match Iterate(v)
          case None => (s, SyncFailed)
          case Some(records) =>
            match SyncRecords(s, records, parse, now)
            case None => (s, SyncFailed)
            case Some(t) => (t.store, Synced(t.synced, t.errors))
  }

  // ---------------------------------------------------------------------
  // Query

  /** The `worker_id` filter. The query string is compared with the integer
      foreign-key column, so it is converted by the store: `Only(id)` when it
      reads as an integer, `NoMatch` when it does not (text never equals an
      integer), `AnyWorker` when the parameter is absent or empty. */
  datatype RefFilter = AnyWorker | Only(id: int) | NoMatch

  /** The filters of one query; absent bounds are None. */
  datatype Criteria = Criteria(ref: RefFilter, start: Option<int>, end: Option<int>)

  /** An event satisfies every filter given; both bounds are inclusive. */
  predicate Matches(e: Event, c: Criteria) {
    && (c.ref.Only? ==> e.workerRef == c.ref.id)
    && !c.ref.NoMatch?
    && (c.start.Some? ==> c.start.value <= e.timestamp)
    && (c.end.Some? ==> e.timestamp <= c.end.value)
  }

  /** A query-string parameter is given when present and non-empty. */
  predicate Given(arg: Option<string>) {
    arg.Some? && |arg.value| > 0
  }

  /** The filters the query parameters ask for. `toInt` is the store's
      conversion of text to an integer; `parse` is `fromisoformat`, whose
      failure is an uncaught exception, modelled as None. */
  function CriteriaOf(workerArg: Option<string>, startArg: Option<string>, endArg: Option<string>,
                      toInt: string -> Option<int>, parse: string -> Option<int>): (r: Option<Criteria>)
    ensures r.Some? <==> (Given(startArg) ==> parse(startArg.value).Some?) && (Given(endArg) ==> parse(endArg.value).Some?)
    ensures r.Some? ==> (r.value.ref.AnyWorker? <==> !Given(workerArg))
    ensures r.Some? && Given(workerArg) && toInt(workerArg.value).Some? ==> r.value.ref == Only(toInt(workerArg.value).value)
    ensures r.Some? && Given(workerArg) && toInt(workerArg.value).None? ==> r.value.ref == NoMatch
    ensures r.Some? ==> (r.value.start.Some? <==> Given(startArg)) && (r.value.end.Some? <==> Given(endArg))
    ensures r.Some? && Given(startArg) ==> r.value.start == parse(startArg.value)
    ensures r.Some? && Given(endArg) ==> r.value.end == parse(endArg.value)
  {
    var ref :=
      if !Given(workerArg) then AnyWorker
      else match toInt(workerArg.value)
        case Some(id) => Only(id)
        case None => NoMatch;
    var start := if Given(startArg) then parse(startArg.value) else None;
    var end := if Given(endArg) then parse(endArg.value) else None;
    if (Given(startArg) && start.None?) || (Given(endArg) && end.None?) then None
    else Some(Criteria(ref, start, end))
  }

  /** The filtered log, in log order: the reference for what a query returns. */
  function Select(log: seq<Event>, c: Criteria): (r: seq<Event>)
    ensures forall e :: multiset(r)[e] == if Matches(e, c) then multiset(log)[e] else 0
  {
    if |log| == 0 then []
    else
      assert log == [log[0]] + log[1..];
      (if Matches(log[0], c) then [log[0]] else []) + Select(log[1..], c)
  }

  /** Ordered by `timestamp` descending. */
  ghost predicate NewestFirst(xs: seq<Event>) {
    forall i, j :: 0 <= i < j < |xs| ==> xs[i].timestamp >= xs[j].timestamp
  }

  /** Insert an event into a newest-first sequence, before the first event
      that is not newer than it. */
  function InsertNewest(e: Event, xs: seq<Event>): (r: seq<Event>)
    requires NewestFirst(xs)
    ensures NewestFirst(r)
    ensures multiset(r) == multiset(xs) + multiset{e}
    ensures |r| == |xs| + 1
    ensures forall x :: x in r ==> x in xs || x == e
  {
    if |xs| == 0 || e.timestamp >= xs[0].timestamp then [e] + xs
    else
      var rest := InsertNewest(e, xs[1..]);
      assert xs == [xs[0]] + xs[1..];
      assert forall x :: x in rest ==> x.timestamp <= xs[0].timestamp;
      [xs[0]] + rest
  }

  /** `order_by(Attendance.timestamp.desc())`. SQL leaves the order among
      equal timestamps open; this sort keeps log order among them. */
  function SortNewestFirst(xs: seq<Event>): (r: seq<Event>)
    ensures NewestFirst(r)
    ensures multiset(r) == multiset(xs)
  {
    if |xs| == 0 then []
    else
      assert xs == [xs[0]] + xs[1..];
      InsertNewest(xs[0], SortNewestFirst(xs[1..]))
  }

  /** `get_attendance`: the events of the log that match every given filter,
      each as often as in the log and no other, newest first. None is the
      server error of a bound `fromisoformat` cannot read. */
  function GetAttendance(s: Store, workerArg: Option<string>, startArg: Option<string>, endArg: Option<string>,
                         toInt: string -> Option<int>, parse: string -> Option<int>): (r: Option<seq<Event>>)
    ensures r.Some? <==> CriteriaOf(workerArg, startArg, endArg, toInt, parse).Some?
    ensures r.Some? ==> NewestFirst(r.value)
    ensures r.Some? ==> var c := CriteriaOf(workerArg, startArg, endArg, toInt, parse).value;
      forall e :: multiset(r.value)[e] == if Matches(e, c) then multiset(s.log)[e] else 0
  {
    match CriteriaOf(workerArg, startArg, endArg, toInt, parse)
    case None => None
    case Some(c) => Some(SortNewestFirst(Select(s.log, c)))
  }

  /** What the query returns is exactly the matching part of the log: every
      returned event matches each given filter, and every matching event of
      the log is returned. */
  lemma GetAttendanceExact(s: Store, workerArg: Option<string>, startArg: Option<string>, endArg: Option<string>,
                           toInt: string -> Option<int>, parse: string -> Option<int>)
    requires GetAttendance(s, workerArg, startArg, endArg, toInt, parse).Some?
    ensures var rs := GetAttendance(s, workerArg, startArg, endArg, toInt, parse).value;
      && (forall e :: e in rs && Given(workerArg) ==> toInt(workerArg.value) == Some(e.workerRef))
      && (forall e :: e in rs && Given(startArg) ==> parse(startArg.value).value <= e.timestamp)
      && (forall e :: e in rs && Given(endArg) ==> e.timestamp <= parse(endArg.value).value)
      && (forall i :: 0 <= i < |s.log| && Matches(s.log[i], CriteriaOf(workerArg, startArg, endArg, toInt, parse).value) ==> s.log[i] in rs)
  {
    var rs := GetAttendance(s, workerArg, startArg, endArg, toInt, parse).value;
    var c := CriteriaOf(workerArg, startArg, endArg, toInt, parse).value;
    forall e | e in rs
      ensures Matches(e, c)
    {
      assert multiset(rs)[e] > 0;
    }
    forall i | 0 <= i < |s.log| && Matches(s.log[i], c)
      ensures s.log[i] in rs
    {
      assert multiset(s.log)[s.log[i]] > 0;
      assert multiset(rs)[s.log[i]] > 0;
    }
  }

  /** With no filter at all, the query returns the whole log, reordered. */
  lemma GetAttendanceUnfiltered(s: Store, toInt: string -> Option<int>, parse: string -> Option<int>)
    ensures GetAttendance(s, None, None, None, toInt, parse).Some?
    ensures multiset(GetAttendance(s, None, None, None, toInt, parse).value) == multiset(s.log)
  {
  }

  /** `[r.to_dict() for r in records]`. */
  function RowsJson(rs: seq<Event>, iso: int -> string): (r: seq<Json>)
    ensures |r| == |rs|
    ensures forall i :: 0 <= i < |r| ==> r[i] == EventToDict(rs[i], iso)
  {
    seq(|rs|, i requires 0 <= i < |rs| => EventToDict(rs[i], iso))
  }
}

=== FILE: py_value.dfy ===
/** The decoded JSON values a Flask view receives, and the few pieces of
    Python's dynamic semantics the engine relies on: truthiness, `dict.get`,
    the `in` operator, subscripting and `str()` of a scalar. */
module PyValue {
  import opened Wrappers

  /** A JSON value after `request.get_json()`. Numbers are integers. */
  datatype Json =
    | JNull
    | JBool(b: bool)
    | JNum(n: int)
    | JStr(s: string)
    | JArr(elems: seq<Json>)
    | JObj(fields: map<string, Json>)

  /** Python truthiness: `not v` holds exactly for None, False, 0, "", [] and {}. */
  predicate Truthy(v: Json) {
    match v
    case JNull => false
    case JBool(b) => b
    case JNum(n) => n != 0
    case JStr(s) => |s| > 0
    case JArr(xs) => |xs| > 0
    case JObj(m) => |m| > 0
  }

  /** The name CPython prints for the type of a decoded JSON value. */
  function TypeName(v: Json): string {
    match v
    case JNull => "NoneType"
    case JBool(_) => "bool"
    case JNum(_) => "int"
    case JStr(_) => "str"
    case JArr(_) => "list"
    case JObj(_) => "dict"
  }

  /** `d.get(key)` on a dict: the value, or None when the key is absent. */
  function Lookup(m: map<string, Json>, key: string): Json
  {
    if key in m then m[key] else JNull
  }

  /** `v.get(key)` on a value already known to be a dict. */
  function Field(v: Json, key: string): (r: Json)
    requires v.JObj?
    ensures key !in v.fields ==> r == JNull
  {
    Lookup(v.fields, key)
  }

  /** `needle` occurs in `hay` starting at position `i`. */
  predicate OccursAt(needle: string, hay: string, i: int) {
    0 <= i <= |hay| - |needle| && hay[i..i + |needle|] == needle
  }

  /** `needle in hay` for two Python strings. */
  predicate IsSubstring(needle: string, hay: string) {
    exists i :: 0 <= i <= |hay| && OccursAt(needle, hay, i)
  }

  /** `key in v`: membership for a dict's keys, a list's elements or a
      string's substrings; None where Python raises TypeError. */
  function Contains(v: Json, key: string): (r: Option<bool>)
    ensures r.None? <==> (v.JNull? || v.JBool? || v.JNum?)
    ensures v.JObj? ==> r == Some(key in v.fields)
    ensures v.JArr? ==> r == Some(JStr(key) in v.elems)
    ensures v.JStr? ==> r == Some(IsSubstring(key, v.s))
  {
    match v
    case JObj(m) => Some(key in m)
    case JArr(xs) => Some(JStr(key) in xs)
    case JStr(s) => Some(IsSubstring(key, s))
    case _ => None
  }

  /** `v[key]` with a string key: only a dict holding the key answers; every
      other case raises (KeyError or TypeError), modelled as None. */
  function Index(v: Json, key: string): (r: Option<Json>)
    ensures r.Some? <==> (v.JObj? && key in v.fields)
    ensures r.Some? ==> r.value == v.fields[key]
  {
    match v
    case JObj(m) => if key in m then Some(m[key]) else None
    case _ => None
  }

  /** The message of the AttributeError raised by `v.get(...)` on a non-dict
      whose type is named `typeName` (see TypeName). */
  function NoGetMessage(typeName: string): string {
    "'" + typeName + "' object has no attribute 'get'"
  }

  // Decimal rendering of integers, as `str(n)` prints them.

  predicate IsDigits(s: string) {
    forall i :: 0 <= i < |s| ==> '0' <= s[i] <= '9'
  }

  function DigitChar(d: nat): (c: char)
    requires d < 10
    ensures '0' <= c <= '9'
    ensures c as int - '0' as int == d
  {
    (d + '0' as int) as char
  }

  /** `str(n)` for a non-negative integer: no sign, no leading zero. */
  function NatText(n: nat): (r: string)
    ensures |r| > 0 && IsDigits(r)
    ensures r[0] == '0' ==> n == 0
    decreases n
  {
    if n < 10 then [DigitChar(n)] else NatText(n / 10) + [DigitChar(n % 10)]
  }

  /** The number a string of decimal digits denotes. */
  function DigitsValue(s: string): nat
    requires IsDigits(s)
  {
    if |s| == 0 then 0
    else DigitsValue(s[..|s| - 1]) * 10 + (s[|s| - 1] as int - '0' as int)
  }

  /** Reading back the digits `str(n)` prints gives `n`. */
  lemma {:induction false} NatTextRoundTrip(n: nat)
    ensures DigitsValue(NatText(n)) == n
    decreases n
  {
    if n >= 10 {
      var prefix := NatText(n / 10);
      var r := NatText(n);
      assert r == prefix + [DigitChar(n % 10)];
      assert r[..|r| - 1] == prefix;
      NatTextRoundTrip(n / 10);
    }
  }

  /** `str(n)` for any integer. */
  function IntText(n: int): (r: string)
    ensures |r| > 0
    ensures r[0] == '-' <==> n < 0
  {
    if n < 0 then "-" + NatText(-n) else NatText(n)
  }

  /** Distinct naturals print differently. */
  lemma NatTextInjective(a: nat, b: nat)
    requires NatText(a) == NatText(b)
    ensures a == b
  {
    NatTextRoundTrip(a);
    NatTextRoundTrip(b);
  }

  /** Distinct integers print differently. */
  lemma IntTextInjective(a: int, b: int)
    requires IntText(a) == IntText(b)
    ensures a == b
  {
    assert (a < 0) == (b < 0) by {
      assert IntText(a)[0] == IntText(b)[0];
    }
    if a < 0 {
      var ta, tb := IntText(a), IntText(b);
      assert ta[1..] == NatText(-a) by { assert ta == "-" + NatText(-a); }
      assert tb[1..] == NatText(-b) by { assert tb == "-" + NatText(-b); }
      NatTextInjective(-a, -b);
    } else {
      NatTextInjective(a, b);
    }
  }

  /** A value `str()` can print without recursion and that SQLite can bind. */
  predicate IsScalar(v: Json) {
    v.JNull? || v.JBool? || v.JNum? || v.JStr?
  }

  /** `str(v)` for a scalar, as an f-string interpolates it. */
  function Str(v: Json): string
    requires IsScalar(v)
  {
    match v
    case JNull => "None"
    case JBool(b) => if b then "True" else "False"
    case JNum(n) => IntText(n)
    case JStr(s) => s
  }
}

=== FILE: scenarios.dfy ===
/** Worked examples of the two batch operations on concrete requests. */
module Scenarios {
  import opened Wrappers
  import opened PyValue
  import opened WorkerModel
  import opened AttendanceModel
  import opened Storage
  import opened WorkerRoutes
  import opened SyncService
  import opened AttendanceRoutes

  /** The body `{"workers": [{"worker_id": ext, "name": name}]}`. */
  function OneWorker(ext: string, name: string): Json {
    JObj(map["workers" := JArr([JObj(map["worker_id" := JStr(ext), "name" := JStr(name)])])])
  }

  /** The item of `OneWorker` reaches the store under `ext`. */
  lemma OneWorkerItem(ext: string, name: string)
    requires |ext| > 0 && |name| > 0
    ensures var item := OneWorker(ext, name).fields["workers"].elems[0];
      Storable(item) && KeyOf(item) == ext && Field(item, "name") == JStr(name)
  {
  }

  /** A one-item batch whose item reaches the store creates its row when the
      external id is fresh and overwrites the stored row otherwise. */
  lemma UpsertOne(s: Store, item: Json, now: int)
    requires Storable(item)
    ensures var (s', reply) := BulkUpsert(s, Some(JObj(map["workers" := JArr([item])])), now);
      && (!HasExt(s.workers, KeyOf(item)) ==>
            reply == Upserted(1, 0, []) && s'.workers == s.workers + [NewRow(s.workers, item, now)])
      && (HasExt(s.workers, KeyOf(item)) ==>
            var i := FindExt(s.workers, KeyOf(item)).value;
            reply == Upserted(0, 1, []) && s'.workers == s.workers[i := Overwrite(s.workers[i], item)])
  {
    UpsertItemsOne(s, item, now);
    UpsertRequest(s, [item], now);
  }

  /** A one-item batch is one step of the fold. */
  lemma UpsertItemsOne(s: Store, item: Json, now: int)
    ensures UpsertItems(s, [item], now) == UpsertItem(Tally(s, 0, 0, []), 0, item, now)
  {
    assert [item][..0] == [];
  }

  /** An upsert request whose items the fold commits replies with the fold's
      counters and errors. */
  lemma UpsertRequest(s: Store, items: seq<Json>, now: int)
    requires |items| > 0 && UpsertItems(s, items, now).Some?
    ensures var t := UpsertItems(s, items, now).value;
      BulkUpsert(s, Some(JObj(map["workers" := JArr(items)])), now) == (t.store, Upserted(t.created, t.updated, t.errors))
  {
    var body := JObj(map["workers" := JArr(items)]);
    assert BodyOrEmpty(Some(body)) == body;
    assert PayloadItems(body) == Some(items);
  }

  /** Upserting W1 as "Ana" into an empty store creates it; upserting it
      again as "Ana Garcia" updates that row, and looking W1 up afterwards
      shows the new name. */
  lemma UpsertThenRename(now1: int, now2: int)
    ensures var (s1, reply1) := BulkUpsert(Store([], []), Some(OneWorker("W1", "Ana")), now1);
      && reply1 == Upserted(1, 0, [])
      && var (s2, reply2) := BulkUpsert(s1, Some(OneWorker("W1", "Ana Garcia")), now2);
      && reply2 == Upserted(0, 1, [])
      && |s2.workers| == 1
      && FindExt(s2.workers, "W1") == Some(0)
      && s2.workers[0].name == "Ana Garcia"
  {
    var item1 := OneWorker("W1", "Ana").fields["workers"].elems[0];
    var item2 := OneWorker("W1", "Ana Garcia").fields["workers"].elems[0];
    OneWorkerItem("W1", "Ana");
    OneWorkerItem("W1", "Ana Garcia");
    UpsertOne(Store([], []), item1, now1);
    var s1 := BulkUpsert(Store([], []), Some(OneWorker("W1", "Ana")), now1).0;
    assert s1.workers == [NewRow([], item1, now1)];
    assert FindExt(s1.workers, "W1") == Some(0);
    UpsertOne(s1, item2, now2);
    var s2 := BulkUpsert(s1, Some(OneWorker("W1", "Ana Garcia")), now2).0;
    assert s2.workers == [Overwrite(s1.workers[0], item2)];
  }

  /** The record `{"worker_id": ext, "timestamp": ts, "event_type": "in"}`. */
  function Punch(ext: string, ts: string): Json {
    JObj(map["worker_id" := JStr(ext), "timestamp" := JStr(ts), "event_type" := JStr("in")])
  }

  /** A punch resolves under `ext`, reports `ext` in its errors, and carries
      the timestamp `ts` and the event type "in". */
  lemma PunchFields(ext: string, ts: string, parse: string -> Option<int>)
    requires |ext| > 0
    ensures Resolvable(Punch(ext, ts)) && RefOf(Punch(ext, ts)) == ext
    ensures Str(Field(Punch(ext, ts), "worker_id")) == ext
    ensures ParseTimestamp(Punch(ext, ts), parse) == parse(ts)
    ensures Writable(Punch(ext, ts)) && BindText(Field(Punch(ext, ts), "event_type")) == Text("in")
  {
  }

  /** A punch for the stored W1 with a readable timestamp appends one event
      referencing W1's row. */
  lemma PunchKnown(t: SyncTally, ext: string, ts: string, parse: string -> Option<int>, now: int)
    requires t.store.workers == [Worker(1, ext, "Ana", None, None, None, Some(0))] && |ext| > 0
    requires parse(ts).Some?
    ensures var r := SyncRecord(t, Punch(ext, ts), parse, now);
      && r.Some? && r.value.synced == t.synced + 1 && r.value.errors == t.errors
      && r.value.store.workers == t.store.workers
      && |r.value.store.log| == |t.store.log| + 1
      && r.value.store.log[|t.store.log|].workerRef == 1
      && r.value.store.log[|t.store.log|].timestamp == parse(ts).value
      && r.value.store.log[|t.store.log|].eventType == Some("in")
  {
    PunchFields(ext, ts, parse);
    assert FindExt(t.store.workers, ext) == Some(0);
  }

  /** A punch for an external id no row has only adds an unknown-worker error. */
  lemma PunchUnknown(t: SyncTally, ext: string, ts: string, parse: string -> Option<int>, now: int)
    requires |ext| > 0 && !HasExt(t.store.workers, ext)
    ensures SyncRecord(t, Punch(ext, ts), parse, now) == Some(t.(errors := t.errors + [UnknownWorker(ext)]))
  {
    PunchFields(ext, ts, parse);
  }

  /** The body `{"records": recs}`. */
  function RecordsBody(recs: seq<Json>): Json {
    JObj(map["records" := JArr(recs)])
  }

  /** A one-record batch is one step of the fold. */
  lemma SyncOne(s: Store, r1: Json, parse: string -> Option<int>, now: int)
    ensures SyncRecords(s, [r1], parse, now) == SyncRecord(SyncTally(s, 0, []), r1, parse, now)
  {
    assert [r1][..0] == [];
  }

  /** A sync request whose records list the fold commits replies with the
      fold's count and errors. */
  lemma SyncRequest(s: Store, recs: seq<Json>, parse: string -> Option<int>, now: int)
    requires SyncRecords(s, recs, parse, now).Some?
    ensures var t := SyncRecords(s, recs, parse, now).value;
      SyncAttendance(s, Some(RecordsBody(recs)), parse, now) == (t.store, Synced(t.synced, t.errors))
  {
  }

  /** A two-record sync request is the fold's two steps, committed. */
  lemma SyncTwo(s: Store, r1: Json, r2: Json, parse: string -> Option<int>, now: int)
    requires SyncRecord(SyncTally(s, 0, []), r1, parse, now).Some?
    requires SyncRecord(SyncRecord(SyncTally(s, 0, []), r1, parse, now).value, r2, parse, now).Some?
    ensures var t := SyncRecord(SyncRecord(SyncTally(s, 0, []), r1, parse, now).value, r2, parse, now).value;
      SyncAttendance(s, Some(RecordsBody([r1, r2])), parse, now) == (t.store, Synced(t.synced, t.errors))
  {
    SyncOne(s, r1, parse, now);
    SyncRecordsSnoc(s, [r1], r2, parse, now);
    assert [r1] + [r2] == [r1, r2];
    SyncRequest(s, [r1, r2], parse, now);
  }

  /** The two-record sync: the record for W1 is stored, the one for GHOST
      is reported as an unknown worker, and the log gains exactly one event,
      which references W1's row. */
  lemma SyncKnownAndGhost(s: Store, parse: string -> Option<int>, now: int)
    requires s.workers == [Worker(1, "W1", "Ana", None, None, None, Some(0))] && s.log == []
    requires parse("2024-01-01T08:00:00").Some?
    ensures var (s2, reply) := SyncAttendance(s, Some(RecordsBody([Punch("W1", "2024-01-01T08:00:00"), Punch("GHOST", "2024-01-01T08:05:00")])), parse, now);
      && reply == Synced(1, [UnknownWorker("GHOST")])
      && |s2.log| == 1
      && s2.log[0].workerRef == 1
      && s2.log[0].eventType == Some("in")
  {
    var r1 := Punch("W1", "2024-01-01T08:00:00");
    var r2 := Punch("GHOST", "2024-01-01T08:05:00");
    PunchKnown(SyncTally(s, 0, []), "W1", "2024-01-01T08:00:00", parse, now);
    var t1 := SyncRecord(SyncTally(s, 0, []), r1, parse, now).value;
    assert FindExt(t1.store.workers, "GHOST").None?;
    PunchUnknown(t1, "GHOST", "2024-01-01T08:05:00", parse, now);
    var t2 := t1.(errors := t1.errors + [UnknownWorker("GHOST")]);
    assert t2.errors == [UnknownWorker("GHOST")];
    SyncTwo(s, r1, r2, parse, now);
  }

  /** A record whose timestamp does not parse is rejected with an invalid
      timestamp error and leaves no event; a valid record in the same batch
      is still stored. */
  lemma SyncBadTimestamp(s: Store, parse: string -> Option<int>, now: int)
    requires s.workers == [Worker(1, "W1", "Ana", None, None, None, Some(0))] && s.log == []
    requires parse("not-a-date").None? && parse("2024-01-01T08:00:00").Some?
    ensures var (s2, reply) := SyncAttendance(s, Some(RecordsBody([Punch("W1", "not-a-date"), Punch("W1", "2024-01-01T08:00:00")])), parse, now);
      && reply == Synced(1, [InvalidTimestamp("W1")])
      && |s2.log| == 1
      && s2.log[0].timestamp == parse("2024-01-01T08:00:00").value
  {
    var r1 := Punch("W1", "not-a-date");
    var r2 := Punch("W1", "2024-01-01T08:00:00");
    PunchFields("W1", "not-a-date", parse);
    PunchFields("W1", "2024-01-01T08:00:00", parse);
    assert FindExt(s.workers, "W1") == Some(0);
    var t1 := SyncTally(s, 0, [InvalidTimestamp("W1")]);
    assert SyncRecord(SyncTally(s, 0, []), r1, parse, now) == Some(t1);
    PunchKnown(t1, "W1", "2024-01-01T08:00:00", parse, now);
    SyncTwo(s, r1, r2, parse, now);
  }
}

=== FILE: storage.dfy ===
/** The two tables as one value, the SQLite column conversions the engine
    depends on, and the store's integrity constraints. */
module Storage {
  import opened Wrappers
  import opened PyValue
  import opened WorkerModel
  import opened AttendanceModel

  /** What SQLite holds after Python binds a value into a column of TEXT
      affinity: NULL, a text, or a binding error (lists, dicts, and integers
      outside SQLite's 64-bit INTEGER, for which the driver raises
      OverflowError). */
  datatype Cell = Null | Text(s: string) | Unbindable

  /** `n` fits SQLite's signed 64-bit INTEGER, the only integers the driver binds. */
  predicate FitsInt64(n: int) {
    -0x8000_0000_0000_0000 <= n < 0x8000_0000_0000_0000
  }

  /** Binding a decoded JSON value to a text column. Integers are stored as
      their decimal text and booleans as 1 or 0. */
  function BindText(v: Json): (c: Cell)
    ensures c.Null? <==> v.JNull?
    ensures c.Unbindable? <==> !IsScalar(v) || (v.JNum? && !FitsInt64(v.n))
    ensures v.JStr? ==> c == Text(v.s)
    ensures v.JNum? && FitsInt64(v.n) ==> c == Text(IntText(v.n))
    ensures v.JBool? ==> c == Text(if v.b then "1" else "0")
  {
    match v
    case JNull => Null
    case JBool(b) => Text(if b then "1" else "0")
    case JNum(n) => if FitsInt64(n) then Text(IntText(n)) else Unbindable
    case JStr(s) => Text(s)
    case _ => Unbindable
  }

  /** The reference an f-string prints for a string or integer is the key
      SQLite was asked to look up; for a boolean they differ, since `True`
      prints as "True" but is looked up as 1. */
  lemma PrintedRefIsBoundKey(v: Json)
    ensures (v.JStr? || v.JNum?) && BindText(v).Text? ==> Str(v) == BindText(v).s
    ensures v.JBool? ==> Str(v) != BindText(v).s
  {
    if v.JBool? {
      assert Str(v)[0] != BindText(v).s[0];
    }
  }

  /** The content of a nullable column after a successful bind. */
  function CellValue(c: Cell): (r: Option<string>)
    requires !c.Unbindable?
    ensures r.None? <==> c.Null?
  {
    match c
    case Null => None
    case Text(s) => Some(s)
  }

  /** The nullable column `o` holds what binding produced `c`. */
  predicate Stores(c: Cell, o: Option<string>) {
    (c.Null? && o.None?) || (c.Text? && o == Some(c.s))
  }

  /** The worker table in rowid order and the attendance log in insertion order. */
  datatype Store = Store(workers: seq<Worker>, log: seq<Event>)

  /** The schema's constraints: primary keys are the row positions counted
      from one (no row is ever deleted), `worker_id` is unique, and every
      event's foreign key names an existing worker. */
  ghost predicate Valid(s: Store) {
    && (forall i :: 0 <= i < |s.workers| ==> s.workers[i].id == i + 1)
    && (forall i, j :: 0 <= i < j < |s.workers| ==> s.workers[i].extId != s.workers[j].extId)
    && (forall i :: 0 <= i < |s.log| ==> s.log[i].id == i + 1)
    && (forall i :: 0 <= i < |s.log| ==> 1 <= s.log[i].workerRef <= |s.workers|)
  }

  /** `Worker.query.filter_by(worker_id=k).first()`: the position of the
      first row whose external id is `k`. */
  function FindExt(ws: seq<Worker>, k: string): (r: Option<nat>)
    ensures r.Some? ==> r.value < |ws| && ws[r.value].extId == k
    ensures r.Some? ==> forall i :: 0 <= i < r.value ==> ws[i].extId != k
    ensures r.None? <==> forall i :: 0 <= i < |ws| ==> ws[i].extId != k
  {
    if |ws| == 0 then None
    else if ws[0].extId == k then Some(0)
    else match FindExt(ws[1..], k)
      case None => None
      case Some(i) => Some(i + 1)
  }

  /** `Worker.query.get(id)`: the position of the row with primary key `id`. */
  function FindId(ws: seq<Worker>, id: int): (r: Option<nat>)
    ensures r.Some? ==> r.value < |ws| && ws[r.value].id == id
    ensures r.None? <==> forall i :: 0 <= i < |ws| ==> ws[i].id != id
  {
    if |ws| == 0 then None
    else if ws[0].id == id then Some(0)
    else match FindId(ws[1..], id)
      case None => None
      case Some(i) => Some(i + 1)
  }

  /** In a valid store the lookup by external id finds the one row carrying it. */
  lemma FindExtUnique(s: Store, i: nat)
    requires Valid(s) && i < |s.workers|
    ensures FindExt(s.workers, s.workers[i].extId) == Some(i)
  {
  }

  /** In a valid store the row with primary key `id` sits at position `id - 1`. */
  lemma FindIdPosition(s: Store, id: int)
    requires Valid(s)
    ensures FindId(s.workers, id) == (if 1 <= id <= |s.workers| then Some(id - 1) else None)
  {
    if 1 <= id <= |s.workers| {
      assert s.workers[id - 1].id == id;
    }
  }
}

=== FILE: sync_service.dfy ===
/** `sync_records` (python-backend/backend/services/sync_service.py): the
    attendance batch fold. Each record either appends one event to the log
    or adds one error; the worker table is only read. */
module SyncService {
  import opened Wrappers
  import opened PyValue
  import opened WorkerModel
  import opened AttendanceModel
  import opened Storage

  /** A per-record error. References are the `str()` of the record's
      `worker_id`, as the f-strings print it. */
  datatype SyncError =
    | NoWorkerId
    | UnknownWorker(ref: string)
    | InvalidTimestamp(ref: string)
    | NotAnObject(typeName: string)
    | LookupFailed

  /** The text appended to `errors`. `driverMessage` is the database driver's
      own wording for a value it cannot bind. */
  function Message(e: SyncError, driverMessage: string): (r: string)
    // the reference sits at a fixed place in the text, so it can be read back
    ensures e.UnknownWorker? ==> |r| == |e.ref| + 25 && r[11..|r| - 14] == e.ref
    ensures e.InvalidTimestamp? ==> |r| == |e.ref| + 31 && r[31..] == e.ref
  {
    match e
    case NoWorkerId => "Registro sin worker_id"
    case UnknownWorker(ref) => "Trabajador " + ref + " no encontrado"
    case InvalidTimestamp(ref) => "Timestamp inválido para worker " + ref
    case NotAnObject(t) => NoGetMessage(t)
    case LookupFailed => driverMessage
  }

  /** An error message names exactly the worker it is about: equal messages
      carry equal references, and an unknown-worker message never reads as a
      timestamp message. */
  lemma MessageNamesWorker(a: string, b: string, driverMessage: string)
    ensures Message(UnknownWorker(a), driverMessage) == Message(UnknownWorker(b), driverMessage) ==> a == b
    ensures Message(InvalidTimestamp(a), driverMessage) == Message(InvalidTimestamp(b), driverMessage) ==> a == b
    ensures Message(UnknownWorker(a), driverMessage) != Message(InvalidTimestamp(b), driverMessage)
  {
    var u := Message(UnknownWorker(a), driverMessage);
    var v := Message(InvalidTimestamp(b), driverMessage);
    assert u[1] == 'r' by { assert u == "Trabajador " + a + " no encontrado"; }
    assert v[1] == 'i' by { assert v == "Timestamp inválido para worker " + b; }
  }

  /** `datetime.fromisoformat(record['timestamp'])` under the inner `except`:
      a missing key or a value that is not a string raises, and so reads as
      unparseable. `parse` is `fromisoformat` on strings. */
  function ParseTimestamp(record: Json, parse: string -> Option<int>): (r: Option<int>)
    requires record.JObj?
    ensures "timestamp" !in record.fields ==> r.None?
    ensures "timestamp" in record.fields && record.fields["timestamp"].JStr? ==> r == parse(record.fields["timestamp"].s)
    ensures r.Some? ==> record.fields["timestamp"].JStr? && parse(record.fields["timestamp"].s) == r
  {
    var v := Field(record, "timestamp");
    if v.JStr? then parse(v.s) else None
  }

  /** The record is a dict whose truthy `worker_id` binds for the lookup. */
  predicate Resolvable(record: Json) {
    record.JObj? && Truthy(Field(record, "worker_id")) && BindText(Field(record, "worker_id")).Text?
  }

  /** The external id a resolvable record is looked up under. */
  function RefOf(record: Json): string
    requires Resolvable(record)
  {
    BindText(Field(record, "worker_id")).s
  }

  /** The record names a stored worker and carries a parseable timestamp: it
      reaches the `Attendance(...)` constructor. */
  predicate Appends(ws: seq<Worker>, record: Json, parse: string -> Option<int>) {
    Resolvable(record) && FindExt(ws, RefOf(record)).Some? && ParseTimestamp(record, parse).Some?
  }

  /** SQLite can bind the record's `event_type` and `location`. */
  predicate Writable(record: Json) {
    record.JObj? ==>
      !BindText(Field(record, "event_type")).Unbindable? && !BindText(Field(record, "location")).Unbindable?
  }

  /** The event `Attendance(worker_id=worker.id, timestamp=ts, ...)` becomes
      once inserted: the next primary key, the resolved worker's internal id
      (never the external one), the parsed time, the record's event type and
      location as sent (no validation), and the sync time. */
  function NewEvent(log: seq<Event>, w: Worker, ts: int, record: Json, now: int): (e: Event)
    requires record.JObj? && Writable(record)
    ensures e.id == |log| + 1 && e.workerRef == w.id && e.timestamp == ts && e.syncedAt == Some(now)
    ensures Stores(BindText(Field(record, "event_type")), e.eventType)
    ensures Stores(BindText(Field(record, "location")), e.location)
  {
    Event(|log| + 1, w.id, ts,
          CellValue(BindText(Field(record, "event_type"))),
          CellValue(BindText(Field(record, "location"))),
          Some(now))
  }

  /** `after` is `before` followed by events synced at `now`. */
  ghost predicate Extends(before: seq<Event>, after: seq<Event>, now: int) {
    && |before| <= |after| && after[..|before|] == before
    && forall i :: |before| <= i < |after| ==> after[i].syncedAt == Some(now)
  }

  lemma ExtendsTransitive(a: seq<Event>, b: seq<Event>, c: seq<Event>, now: int)
    requires Extends(a, b, now) && Extends(b, c, now)
    ensures Extends(a, c, now)
  {
    assert c[..|b|][..|a|] == c[..|a|];
  }

  /** The running counters of the fold, with the store as it stands. */
  datatype SyncTally = SyncTally(store: Store, synced: nat, errors: seq<SyncError>)

  /** One iteration of the loop. The checks run in source order: the
      record's shape, `worker_id`, the worker lookup, then the timestamp.
      None means the record wrote an event type or location SQLite cannot
      bind: the commit at the end raises and the request fails. */
  function SyncRecord(t: SyncTally, record: Json, parse: string -> Option<int>, now: int): (r: Option<SyncTally>)
    ensures r.None? <==> Appends(t.store.workers, record, parse) && !Writable(record)
    // every record is counted exactly once, and the worker table is only read
    ensures r.Some? ==> r.value.synced + |r.value.errors| == t.synced + |t.errors| + 1
    ensures r.Some? ==> r.value.store.workers == t.store.workers
    ensures r.Some? ==> t.synced <= r.value.synced
    ensures r.Some? ==> |r.value.store.log| == |t.store.log| + r.value.synced - t.synced
    ensures r.Some? ==> Extends(t.store.log, r.value.store.log, now)
    ensures r.Some? ==> |t.errors| <= |r.value.errors| && r.value.errors[..|t.errors|] == t.errors
    // a record that does not append leaves the log alone and reports one error
    ensures !Appends(t.store.workers, record, parse) ==>
      && r.Some? && r.value.store == t.store && r.value.synced == t.synced
      && |r.value.errors| == |t.errors| + 1
    ensures !record.JObj? ==> r == Some(t.(errors := t.errors + [NotAnObject(TypeName(record))]))
    ensures record.JObj? && !Truthy(Field(record, "worker_id")) ==> r == Some(t.(errors := t.errors + [NoWorkerId]))
    // a truthy `worker_id` the lookup cannot bind reports the driver's error
    ensures record.JObj? && Truthy(Field(record, "worker_id")) && !Resolvable(record) ==>
      r == Some(t.(errors := t.errors + [LookupFailed]))
    // an unknown worker is reported before the timestamp is looked at
    ensures Resolvable(record) && FindExt(t.store.workers, RefOf(record)).None? ==>
      r == Some(t.(errors := t.errors + [UnknownWorker(Str(Field(record, "worker_id")))]))
    ensures Resolvable(record) && FindExt(t.store.workers, RefOf(record)).Some? && ParseTimestamp(record, parse).None? ==>
      r == Some(t.(errors := t.errors + [InvalidTimestamp(Str(Field(record, "worker_id")))]))
    // a record that appends adds exactly one event for the resolved worker
    ensures Appends(t.store.workers, record, parse) && Writable(record) ==>
      var w := t.store.workers[FindExt(t.store.workers, RefOf(record)).value];
      r == Some(t.(store := t.store.(log := t.store.log + [NewEvent(t.store.log, w, ParseTimestamp(record, parse).value, record, now)]),
                   synced := t.synced + 1))
  {
    if !record.JObj? then
      Some(t.(errors := t.errors + [NotAnObject(TypeName(record))]))
    else if !Truthy(Field(record, "worker_id")) then
      Some(t.(errors := t.errors + [NoWorkerId]))
    else if !BindText(Field(record, "worker_id")).Text? then
      Some(t.(errors := t.errors + [LookupFailed]))
    else match FindExt(t.store.workers, RefOf(record))
      case None =>
        Some(t.(errors := t.errors + [UnknownWorker(Str(Field(record, "worker_id")))]))
      case Some(i) =>
        match ParseTimestamp(record, parse)
        case None =>
          Some(t.(errors := t.errors + [InvalidTimestamp(Str(Field(record, "worker_id")))]))
        case Some(ts) =>
          if !Writable(record) then None
          else
            var e := NewEvent(t.store.log, t.store.workers[i], ts, record, now);
            Some(t.(store := t.store.(log := t.store.log + [e]), synced := t.synced + 1))
  }

  /** The reference an unknown-worker or bad-timestamp error prints is the
      key the worker was looked up under, except when `worker_id` is a
      boolean: `True` is printed as "True" but looked up as 1. */
  lemma ReportedRefIsLookupKey(t: SyncTally, record: Json, parse: string -> Option<int>, now: int)
    ensures var r := SyncRecord(t, record, parse, now);
      r.Some? && |r.value.errors| == |t.errors| + 1 && (r.value.errors[|t.errors|].UnknownWorker? || r.value.errors[|t.errors|].InvalidTimestamp?) ==>
        && Resolvable(record)
        && (r.value.errors[|t.errors|].ref == RefOf(record) <==> !Field(record, "worker_id").JBool?)
  {
    if Resolvable(record) {
      PrintedRefIsBoundKey(Field(record, "worker_id"));
    }
  }

  /** A step keeps the schema's constraints: the new event takes the next
      key and points at a stored worker. */
  lemma SyncRecordKeepsValid(t: SyncTally, record: Json, parse: string -> Option<int>, now: int)
    ensures SyncRecord(t, record, parse, now).Some? && Valid(t.store) ==>
      Valid(SyncRecord(t, record, parse, now).value.store)
  {
  }

  /** No record that would append carries a value SQLite cannot bind. */
  predicate AllWritable(ws: seq<Worker>, records: seq<Json>, parse: string -> Option<int>) {
    forall j :: 0 <= j < |records| ==> (Appends(ws, records[j], parse) ==> Writable(records[j]))
  }

  /** A batch is writable exactly when its prefix and its last record are. */
  lemma AllWritableLast(ws: seq<Worker>, records: seq<Json>, parse: string -> Option<int>)
    requires |records| > 0
    ensures var n := |records| - 1;
      AllWritable(ws, records, parse) <==>
        AllWritable(ws, records[..n], parse) && (Appends(ws, records[n], parse) ==> Writable(records[n]))
  {
    var n := |records| - 1;
    assert forall j :: 0 <= j < n ==> records[..n][j] == records[j];
  }

  /** `sync_records`: the loop over the records, as a fold over the prefix,
      returning `(synced_count, errors)` with the store after the commit. */
  function SyncRecords(s: Store, records: seq<Json>, parse: string -> Option<int>, now: int): (r: Option<SyncTally>)
    ensures r.Some? <==> AllWritable(s.workers, records, parse)
    ensures r.Some? ==> r.value.synced + |r.value.errors| == |records|
    // the worker table is unchanged; the log only grows, by one event per synced record
    ensures r.Some? ==> r.value.store.workers == s.workers
    ensures r.Some? ==> |r.value.store.log| == |s.log| + r.value.synced
    ensures r.Some? ==> Extends(s.log, r.value.store.log, now)
    ensures r.Some? && Valid(s) ==> Valid(r.value.store)
    decreases |records|
  {
    if |records| == 0 then Some(SyncTally(s, 0, []))
    else
      var n := |records| - 1;
      AllWritableLast(s.workers, records, parse);
      match SyncRecords(s, records[..n], parse, now)
      case None => None
      case Some(t) =>
        var r := SyncRecord(t, records[n], parse, now);
        if r.None? then None
        else
          SyncRecordKeepsValid(t, records[n], parse, now);
          ExtendsTransitive(s.log, t.store.log, r.value.store.log, now);
          r
  }

  /** Appending one record to a batch adds exactly that record's step. */
  lemma SyncRecordsSnoc(s: Store, records: seq<Json>, record: Json, parse: string -> Option<int>, now: int)
    requires SyncRecords(s, records, parse, now).Some?
    ensures SyncRecords(s, records + [record], parse, now)
         == SyncRecord(SyncRecords(s, records, parse, now).value, record, parse, now)
  {
    assert (records + [record])[..|records|] == records;
  }

  /** No deduplication: submitting the same record twice appends two events
      that differ only in their primary key. */
  lemma SyncDuplicatesAreKept(s: Store, record: Json, parse: string -> Option<int>, now: int)
    requires Appends(s.workers, record, parse) && Writable(record)
    ensures SyncRecords(s, [record, record], parse, now).Some?
    ensures var r := SyncRecords(s, [record, record], parse, now).value;
      && r.synced == 2 && r.errors == []
      && |r.store.log| == |s.log| + 2
      && r.store.log[|s.log|].(id := 0) == r.store.log[|s.log| + 1].(id := 0)
  {
  }
}

=== FILE: worker_model.dfy ===
/** The `workers` table row and its `to_dict` projection
    (python-backend/backend/models/worker.py). */
module WorkerModel {
  import opened Wrappers
  import opened PyValue

  /** The text `json.dumps(source)` stored in `face_encoding`. The rendering
      is left abstract; wrapping the source value keeps it injective. */
  datatype Encoding = Dumps(source: Json)

  /** One row of `workers`. `extId` is the client's `worker_id` column and
      `name` its NOT NULL column, so neither is optional; `id` is the
      store-assigned primary key. */
  datatype Worker = Worker(
    id: int,
    extId: string,
    name: string,
    email: Option<string>,
    phone: Option<string>,
    face: Option<Encoding>,
    createdAt: Option<int>)

  /** The keys `Worker.to_dict` emits. */
  const WorkerKeys: set<string> := {"id", "worker_id", "name", "email", "phone", "created_at"}

  /** A nullable text column as JSON. */
  function TextOrNull(o: Option<string>): (r: Json)
    ensures r == JNull <==> o.None?
  {
    match o
    case None => JNull
    case Some(s) => JStr(s)
  }

  /** A nullable datetime column as JSON: `isoformat()` when set, else null. */
  function TimeOrNull(o: Option<int>, iso: int -> string): (r: Json)
    ensures r == JNull <==> o.None?
    ensures o.Some? ==> r == JStr(iso(o.value))
  {
    match o
    case None => JNull
    case Some(t) => JStr(iso(t))
  }

  /** `Worker.to_dict`: exactly the six public columns; the fingerprint is
      never exposed and a missing `created_at` becomes null. */
  function WorkerToDict(w: Worker, iso: int -> string): (r: Json)
    ensures r.JObj? && r.fields.Keys == WorkerKeys
    ensures "face_encoding" !in r.fields
    ensures r.fields["id"] == JNum(w.id) && r.fields["worker_id"] == JStr(w.extId) && r.fields["name"] == JStr(w.name)
    ensures r.fields["email"] == JNull <==> w.email.None?
    ensures w.email.Some? ==> r.fields["email"] == JStr(w.email.value)
    ensures r.fields["phone"] == JNull <==> w.phone.None?
    ensures w.phone.Some? ==> r.fields["phone"] == JStr(w.phone.value)
    ensures r.fields["created_at"] == JNull <==> w.createdAt.None?
    ensures w.createdAt.Some? ==> r.fields["created_at"] == JStr(iso(w.createdAt.value))
  {
    JObj(map[
      "id" := JNum(w.id),
      "worker_id" := JStr(w.extId),
      "name" := JStr(w.name),
      "email" := TextOrNull(w.email),
      "phone" := TextOrNull(w.phone),
      "created_at" := TimeOrNull(w.createdAt, iso)])
  }

  /** Two rows agree on everything `to_dict` is meant to show. */
  predicate SameExceptFace(a: Worker, b: Worker) {
    a.(face := None) == b.(face := None)
  }

  /** With an injective `isoformat`, two rows project to the same dict
      exactly when they differ at most in their fingerprint. */
  lemma WorkerToDictExact(a: Worker, b: Worker, iso: int -> string)
    requires forall x, y :: iso(x) == iso(y) ==> x == y
    ensures WorkerToDict(a, iso) == WorkerToDict(b, iso) <==> SameExceptFace(a, b)
  {
  }
}

=== FILE: worker_routes.dfy ===
/** The worker endpoints (python-backend/backend/routes/workers.py): the bulk
    upsert fold, single creation, partial update by external id, and the two
    read-only lookups. Every handler takes the store as a value and returns
    the store after its commit together with the reply it sends. */
module WorkerRoutes {
  import opened Wrappers
  import opened PyValue
  import opened WorkerModel
  import opened Storage

  // ---------------------------------------------------------------------
  // Reading one request item

  /** The item is a dict with truthy `worker_id` and `name`, and SQLite can
      bind its `worker_id` for the lookup query: it reaches the store. */
  predicate Accepted(item: Json) {
    && item.JObj?
    && Truthy(Field(item, "worker_id"))
    && Truthy(Field(item, "name"))
    && BindText(Field(item, "worker_id")).Text?
  }

  /** The external id an accepted item is stored and looked up under. */
  function KeyOf(item: Json): string
    requires Accepted(item)
  {
    BindText(Field(item, "worker_id")).s
  }

  /** An accepted item whose name, email and phone SQLite can also bind, so
      writing it does not make the final flush fail. */
  predicate Storable(item: Json) {
    && Accepted(item)
    && BindText(Field(item, "name")).Text?
    && !BindText(Field(item, "email")).Unbindable?
    && !BindText(Field(item, "phone")).Unbindable?
  }

  /** `json.dumps(v) if v is not None else None`. */
  function Dumped(v: Json): Option<Encoding>
  {
    if v == JNull then None else Some(Dumps(v))
  }

  /** The `face_encoding` column an item asks for: the dumped value, or NULL
      when the key is absent or null. */
  function FaceOf(item: Json): (r: Option<Encoding>)
    requires item.JObj?
    ensures r.None? <==> Field(item, "face_encoding") == JNull
  {
    Dumped(Field(item, "face_encoding"))
  }

  /** The row `Worker(worker_id=..., name=..., email=..., phone=...,
      face_encoding=...)` becomes once inserted: the next primary key, the
      item's bound fields, its fingerprint or NULL, and the insertion time. */
  function NewRow(ws: seq<Worker>, item: Json, now: int): (w: Worker)
    requires Storable(item)
    ensures w.id == |ws| + 1 && w.extId == KeyOf(item) && w.createdAt == Some(now)
    ensures Stores(BindText(Field(item, "name")), Some(w.name))
    ensures Stores(BindText(Field(item, "email")), w.email)
    ensures Stores(BindText(Field(item, "phone")), w.phone)
    ensures w.face.None? <==> Field(item, "face_encoding") == JNull
    ensures w.face.Some? ==> w.face.value.source == Field(item, "face_encoding")
  {
    Worker(|ws| + 1, KeyOf(item), BindText(Field(item, "name")).s,
           CellValue(BindText(Field(item, "email"))), CellValue(BindText(Field(item, "phone"))),
           FaceOf(item), Some(now))
  }

  /** An existing row after an upsert item: name, email and phone are always
      overwritten (an absent email or phone becomes NULL); the fingerprint is
      replaced only when the item carries the `face_encoding` key, and a
      null there clears it. Identity columns never change. */
  function Overwrite(w: Worker, item: Json): (r: Worker)
    requires Storable(item)
    ensures r.id == w.id && r.extId == w.extId && r.createdAt == w.createdAt
    ensures Stores(BindText(Field(item, "name")), Some(r.name))
    ensures Stores(BindText(Field(item, "email")), r.email)
    ensures Stores(BindText(Field(item, "phone")), r.phone)
    ensures "email" !in item.fields ==> r.email.None?
    ensures "phone" !in item.fields ==> r.phone.None?
    ensures "face_encoding" !in item.fields ==> r.face == w.face
    ensures "face_encoding" in item.fields && item.fields["face_encoding"] == JNull ==> r.face.None?
    ensures "face_encoding" in item.fields && item.fields["face_encoding"] != JNull ==>
      r.face == Some(Dumps(item.fields["face_encoding"]))
  {
    w.(name := BindText(Field(item, "name")).s,
       email := CellValue(BindText(Field(item, "email"))),
       phone := CellValue(BindText(Field(item, "phone"))),
       face := if "face_encoding" in item.fields then FaceOf(item) else w.face)
  }

  /** The external id was stored by some row. */
  predicate HasExt(ws: seq<Worker>, k: string) {
    FindExt(ws, k).Some?
  }

  /** `after` keeps every row of `before` at its position with the same
      primary key, external id and creation time; rows are only appended. */
  ghost predicate KeepsRows(before: seq<Worker>, after: seq<Worker>) {
    && |before| <= |after|
    && forall i :: 0 <= i < |before| ==>
         after[i].id == before[i].id && after[i].extId == before[i].extId
         && after[i].createdAt == before[i].createdAt
  }

  lemma KeepsRowsHasExt(before: seq<Worker>, after: seq<Worker>, k: string)
    requires KeepsRows(before, after) && HasExt(before, k)
    ensures HasExt(after, k)
  {
    var i := FindExt(before, k).value;
    assert after[i].extId == k;
  }

  lemma KeepsRowsTransitive(a: seq<Worker>, b: seq<Worker>, c: seq<Worker>)
    requires KeepsRows(a, b) && KeepsRows(b, c)
    ensures KeepsRows(a, c)
  {
  }

  // ---------------------------------------------------------------------
  // Bulk upsert

  /** A per-item error of the bulk upsert; each carries the item's position. */
  datatype UpsertError =
    | MissingFields(idx: nat)
    | NotAnObject(idx: nat, typeName: string)
    | LookupFailed(idx: nat)

  /** The tag `Item {idx}: ` every per-item message starts with. */
  function ItemTag(idx: nat): string {
    "Item " + NatText(idx) + ": "
  }

  /** The text appended to `errors`. `driverMessage` is the database driver's
      own wording for a value it cannot bind. */
  function Message(e: UpsertError, driverMessage: string): (r: string)
    ensures |ItemTag(e.idx)| <= |r| && r[..|ItemTag(e.idx)|] == ItemTag(e.idx)
  {
    ItemTag(e.idx) +
      match e
      case MissingFields(_) => "faltan worker_id o name"
      case NotAnObject(_, t) => NoGetMessage(t)
      case LookupFailed(_) => driverMessage
  }

  /** The running counters of the fold, with the store as it stands. */
  datatype Tally = Tally(store: Store, created: nat, updated: nat, errors: seq<UpsertError>)

  /** One step of the bulk upsert loop. None means the item wrote a value
      SQLite cannot bind: the flush after it fails, the final commit raises
      and the whole request ends in a server error. */
  function UpsertItem(t: Tally, idx: nat, item: Json, now: int): (r: Option<Tally>)
    ensures r.None? <==> Accepted(item) && !Storable(item)
    // each item is counted exactly once
    ensures r.Some? ==>
      r.value.created + r.value.updated + |r.value.errors| == t.created + t.updated + |t.errors| + 1
    ensures r.Some? ==> r.value.store.log == t.store.log && KeepsRows(t.store.workers, r.value.store.workers)
    ensures r.Some? ==> |r.value.store.workers| == |t.store.workers| + r.value.created - t.created
    ensures r.Some? ==> ErrorsGrow(t.errors, r.value.errors, idx)
    // a rejected item appends one error with its index and changes nothing else
    ensures !Accepted(item) ==>
      && r.Some? && r.value.store == t.store
      && r.value.created == t.created && r.value.updated == t.updated
      && |r.value.errors| == |t.errors| + 1 && r.value.errors[|t.errors|].idx == idx
    ensures !item.JObj? ==> r == Some(t.(errors := t.errors + [NotAnObject(idx, TypeName(item))]))
    ensures item.JObj? && !(Truthy(Field(item, "worker_id")) && Truthy(Field(item, "name"))) ==>
      r == Some(t.(errors := t.errors + [MissingFields(idx)]))
    ensures item.JObj? && Truthy(Field(item, "worker_id")) && Truthy(Field(item, "name")) && !Accepted(item) ==>
      r == Some(t.(errors := t.errors + [LookupFailed(idx)]))
    // an existing external id: that row is overwritten in place, no row is added
    ensures Storable(item) && HasExt(t.store.workers, KeyOf(item)) ==>
      var ws, i := t.store.workers, FindExt(t.store.workers, KeyOf(item)).value;
      r == Some(t.(store := t.store.(workers := ws[i := Overwrite(ws[i], item)]), updated := t.updated + 1))
    // a fresh external id: exactly one row is appended
    ensures Storable(item) && !HasExt(t.store.workers, KeyOf(item)) ==>
      var ws := t.store.workers;
      r == Some(t.(store := t.store.(workers := ws + [NewRow(ws, item, now)]), created := t.created + 1))
  {
    if !item.JObj? then
      Some(t.(errors := t.errors + [NotAnObject(idx, TypeName(item))]))
    else if !Truthy(Field(item, "worker_id")) || !Truthy(Field(item, "name")) then
      Some(t.(errors := t.errors + [MissingFields(idx)]))
    else if !BindText(Field(item, "worker_id")).Text? then
      Some(t.(errors := t.errors + [LookupFailed(idx)]))
    else if !Storable(item) then
      None
    else
      var ws := t.store.workers;
      match FindExt(ws, KeyOf(item))
      case Some(i) =>
        Some(t.(store := t.store.(workers := ws[i := Overwrite(ws[i], item)]), updated := t.updated + 1))
      case None =>
        Some(t.(store := t.store.(workers := ws + [NewRow(ws, item, now)]), created := t.created + 1))
  }

  /** A step keeps the schema's constraints: an overwrite leaves keys and
      external ids alone, and a new row takes the next key and an external id
      no row has. */
  lemma UpsertItemKeepsValid(t: Tally, idx: nat, item: Json, now: int)
    ensures UpsertItem(t, idx, item, now).Some? && Valid(t.store) ==> Valid(UpsertItem(t, idx, item, now).value.store)
  {
  }

  /** No item of the batch reaches the store with a value SQLite cannot bind. */
  predicate AllWritable(items: seq<Json>) {
    forall j :: 0 <= j < |items| ==> (Accepted(items[j]) ==> Storable(items[j]))
  }

  /** `after` is `before`, possibly with one more error for item `idx`. */
  predicate ErrorsGrow(before: seq<UpsertError>, after: seq<UpsertError>, idx: nat) {
    after == before || (|after| == |before| + 1 && after[..|before|] == before && after[|before|].idx == idx)
  }

  /** The errors name items below `n`, in increasing item order. */
  predicate ErrorsInOrder(errors: seq<UpsertError>, n: nat) {
    && (forall a, b :: 0 <= a < b < |errors| ==> errors[a].idx < errors[b].idx)
    && (forall a :: 0 <= a < |errors| ==> errors[a].idx < n)
  }

  lemma ErrorsInOrderStep(before: seq<UpsertError>, after: seq<UpsertError>, n: nat)
    requires ErrorsInOrder(before, n) && ErrorsGrow(before, after, n)
    ensures ErrorsInOrder(after, n + 1)
  {
    if after != before {
      assert forall a :: 0 <= a < |before| ==> after[a] == before[a];
    }
  }

  /** A batch is writable exactly when its prefix and its last item are. */
  lemma AllWritableLast(items: seq<Json>)
    requires |items| > 0
    ensures var n := |items| - 1;
      AllWritable(items) <==> AllWritable(items[..n]) && (Accepted(items[n]) ==> Storable(items[n]))
  {
    var n := |items| - 1;
    assert forall j :: 0 <= j < n ==> items[..n][j] == items[j];
  }

  /** The `for idx, item in enumerate(items)` loop, as a fold over the prefix. */
  function UpsertItems(s: Store, items: seq<Json>, now: int): (r: Option<Tally>)
    ensures r.Some? <==> AllWritable(items)
    ensures r.Some? ==> r.value.created + r.value.updated + |r.value.errors| == |items|
    ensures r.Some? ==> r.value.store.log == s.log && KeepsRows(s.workers, r.value.store.workers)
    ensures r.Some? ==> |r.value.store.workers| == |s.workers| + r.value.created
    ensures r.Some? && Valid(s) ==> Valid(r.value.store)
    // errors keep item order and name items of the batch
    ensures r.Some? ==> ErrorsInOrder(r.value.errors, |items|)
    decreases |items|
  {
    if |items| == 0 then Some(Tally(s, 0, 0, []))
    else
      var n := |items| - 1;
      AllWritableLast(items);
      match UpsertItems(s, items[..n], now)
      case None => None
      case Some(t) =>
        var r := UpsertItem(t, n, items[n], now);
        if r.None? then None
        else
          ErrorsInOrderStep(t.errors, r.value.errors, n);
          UpsertItemKeepsValid(t, n, items[n], now);
          KeepsRowsTransitive(s.workers, t.store.workers, r.value.store.workers);
          r
  }

  /** The outcome of `bulk_upsert_workers`. */
  datatype UpsertReply =
    | NothingToProcess
    | Upserted(created: nat, updated: nat, errors: seq<UpsertError>)
    | UpsertFailed

  /** The items of a payload: present only when `workers` is a non-empty list. */
  function PayloadItems(payload: Json): (r: Option<seq<Json>>)
    requires payload.JObj?
    ensures r.Some? <==>
      "workers" in payload.fields && payload.fields["workers"].JArr? && |payload.fields["workers"].elems| > 0
    ensures r.Some? ==> r.value == payload.fields["workers"].elems && |r.value| > 0
    ensures "workers" !in payload.fields ==> r.None?
  {
    var items := if "workers" in payload.fields then payload.fields["workers"] else JArr([]);
    if items.JArr? && |items.elems| > 0 then Some(items.elems) else None
  }

  /** `request.get_json() or {}`: a falsy body (null, false, 0, "", [] or {})
      reads as the empty dict, any other body as itself. */
  function BodyOrEmpty(body: Option<Json>): (r: Json)
    ensures body.None? ==> r == JObj(map[])
    ensures body.Some? && Truthy(body.value) ==> r == body.value
    ensures body.Some? && !Truthy(body.value) ==> r == JObj(map[])
  {
    if body.Some? && Truthy(body.value) then body.value else JObj(map[])
  }

  /** `bulk_upsert_workers`: a batch-level guard, then the per-item fold and
      one commit. Only the guard and an unbindable value reject the batch. */
  function BulkUpsert(s: Store, body: Option<Json>, now: int): (r: (Store, UpsertReply))
    ensures !r.1.Upserted? ==> r.0 == s
    ensures body.None? ==> r.1 == NothingToProcess
    ensures BodyOrEmpty(body).JObj? ==> (r.1.NothingToProcess? <==> PayloadItems(BodyOrEmpty(body)).None?)
    ensures r.1.Upserted? ==>
      && BodyOrEmpty(body).JObj? && PayloadItems(BodyOrEmpty(body)).Some?
      && r.1.created + r.1.updated + |r.1.errors| == |PayloadItems(BodyOrEmpty(body)).value|
      && |r.0.workers| == |s.workers| + r.1.created
      && r.0.log == s.log
    // the reply reports the fold's own counters and errors, and its store is committed
    ensures r.1.Upserted? ==>
      UpsertItems(s, PayloadItems(BodyOrEmpty(body)).value, now) == Some(Tally(r.0, r.1.created, r.1.updated, r.1.errors))
    ensures r.1.UpsertFailed? <==>
      !BodyOrEmpty(body).JObj?
      || (PayloadItems(BodyOrEmpty(body)).Some? && UpsertItems(s, PayloadItems(BodyOrEmpty(body)).value, now).None?)
    ensures Valid(s) ==> Valid(r.0)
  {
    var payload := BodyOrEmpty(body);
    if !payload.JObj? then (s, UpsertFailed)
    else match PayloadItems(payload)
      case None => (s, NothingToProcess)
      case Some(items) =>
        match UpsertItems(s, items, now)
        case None => (s, UpsertFailed)
        case Some(t) => (t.store, Upserted(t.created, t.updated, t.errors))
  }

  // ---------------------------------------------------------------------
  // Properties of the fold across runs

  /** The error an item raises before anything is written, if any. */
  function ItemError(idx: nat, item: Json): (r: Option<UpsertError>)
    ensures r.None? <==> Accepted(item)
    ensures r.Some? ==> r.value.idx == idx
    // the kind of error follows the order of the handler's checks
    ensures !item.JObj? ==> r == Some(NotAnObject(idx, TypeName(item)))
    ensures item.JObj? && !(Truthy(Field(item, "worker_id")) && Truthy(Field(item, "name"))) ==>
      r == Some(MissingFields(idx))
    ensures item.JObj? && Truthy(Field(item, "worker_id")) && Truthy(Field(item, "name")) && !Accepted(item) ==>
      r == Some(LookupFailed(idx))
  {
    if !item.JObj? then Some(NotAnObject(idx, TypeName(item)))
    else if !Truthy(Field(item, "worker_id")) || !Truthy(Field(item, "name")) then Some(MissingFields(idx))
    else if !BindText(Field(item, "worker_id")).Text? then Some(LookupFailed(idx))
    else None
  }

  /** The errors of a batch read off its items alone: the reference for
      which items fail, and how. */
  function ItemErrors(items: seq<Json>): (r: seq<UpsertError>)
    decreases |items|
  {
    if |items| == 0 then []
    else
      var n := |items| - 1;
      ItemErrors(items[..n]) + match ItemError(n, items[n]) case None => [] case Some(e) => [e]
  }

  /** A step appends exactly the item's own error, whatever the store. */
  lemma UpsertItemError(t: Tally, idx: nat, item: Json, now: int)
    requires UpsertItem(t, idx, item, now).Some?
    ensures UpsertItem(t, idx, item, now).value.errors
         == t.errors + match ItemError(idx, item) case None => [] case Some(e) => [e]
  {
  }

  /** The errors of a committed batch are those its items raise, in item
      order: they depend on neither the store nor the clock. */
  lemma {:induction false} UpsertErrorsAreItemErrors(s: Store, items: seq<Json>, now: int)
    requires UpsertItems(s, items, now).Some?
    ensures UpsertItems(s, items, now).value.errors == ItemErrors(items)
    decreases |items|
  {
    if |items| > 0 {
      var n := |items| - 1;
      UpsertItemsLast(s, items, now);
      UpsertErrorsAreItemErrors(s, items[..n], now);
      UpsertItemError(UpsertItems(s, items[..n], now).value, n, items[n], now);
    }
  }

  /** Whether a batch commits, and the errors it reports, are the same
      whatever the store and the clock. */
  lemma {:induction false} UpsertErrorsIgnoreStore(s1: Store, s2: Store, items: seq<Json>, now1: int, now2: int)
    requires UpsertItems(s1, items, now1).Some?
    ensures UpsertItems(s2, items, now2).Some?
    ensures UpsertItems(s2, items, now2).value.errors == UpsertItems(s1, items, now1).value.errors
  {
    UpsertErrorsAreItemErrors(s1, items, now1);
    UpsertErrorsAreItemErrors(s2, items, now2);
  }

  /** One unfolding of the fold: a successful batch is a successful prefix
      followed by the last item's step. */
  lemma UpsertItemsLast(s: Store, items: seq<Json>, now: int)
    requires |items| > 0 && UpsertItems(s, items, now).Some?
    ensures UpsertItems(s, items[..|items| - 1], now).Some?
    ensures UpsertItems(s, items, now)
         == UpsertItem(UpsertItems(s, items[..|items| - 1], now).value, |items| - 1, items[|items| - 1], now)
  {
  }

  /** After a batch, the external id of every item that was stored is present. */
  lemma {:induction false} UpsertStoresEveryKey(s: Store, items: seq<Json>, now: int, r: Tally)
    requires UpsertItems(s, items, now) == Some(r)
    ensures forall j :: 0 <= j < |items| && Storable(items[j]) ==> HasExt(r.store.workers, KeyOf(items[j]))
    decreases |items|, 1
  {
    if |items| > 0 {
      UpsertStoresEarlierKeys(s, items, now, r);
      if Storable(items[|items| - 1]) {
        UpsertStoresLastKey(s, items, now, r);
      }
    }
  }

  lemma {:induction false} UpsertStoresEarlierKeys(s: Store, items: seq<Json>, now: int, r: Tally)
    requires UpsertItems(s, items, now) == Some(r) && |items| > 0
    ensures forall j :: 0 <= j < |items| - 1 && Storable(items[j]) ==> HasExt(r.store.workers, KeyOf(items[j]))
    decreases |items|, 0
  {
    var n := |items| - 1;
    var prefix := items[..n];
    UpsertItemsLast(s, items, now);
    var t := UpsertItems(s, prefix, now).value;
    assert r == UpsertItem(t, n, items[n], now).value;
    UpsertStoresEveryKey(s, prefix, now, t);
    UpsertItemKeepsKeys(t, n, items[n], now, prefix);
    forall j | 0 <= j < n && Storable(items[j])
      ensures HasExt(r.store.workers, KeyOf(items[j]))
    {
      assert prefix[j] == items[j];
    }
  }

  lemma UpsertStoresLastKey(s: Store, items: seq<Json>, now: int, r: Tally)
    requires UpsertItems(s, items, now) == Some(r) && |items| > 0
    requires Storable(items[|items| - 1])
    ensures HasExt(r.store.workers, KeyOf(items[|items| - 1]))
  {
    var n := |items| - 1;
    UpsertItemsLast(s, items, now);
    var t := UpsertItems(s, items[..n], now).value;
    assert r == UpsertItem(t, n, items[n], now).value;
    UpsertItemStoresKey(t, n, items[n], now);
  }

  /** A step keeps every external id the store already had. */
  lemma UpsertItemKeepsKeys(t: Tally, idx: nat, item: Json, now: int, earlier: seq<Json>)
    requires UpsertItem(t, idx, item, now).Some?
    requires forall j :: 0 <= j < |earlier| && Storable(earlier[j]) ==> HasExt(t.store.workers, KeyOf(earlier[j]))
    ensures forall j :: 0 <= j < |earlier| && Storable(earlier[j]) ==>
      HasExt(UpsertItem(t, idx, item, now).value.store.workers, KeyOf(earlier[j]))
  {
    var ws' := UpsertItem(t, idx, item, now).value.store.workers;
    forall j | 0 <= j < |earlier| && Storable(earlier[j])
      ensures HasExt(ws', KeyOf(earlier[j]))
    {
      KeepsRowsHasExt(t.store.workers, ws', KeyOf(earlier[j]));
    }
  }

  /** A stored item's external id is present after its step. */
  lemma UpsertItemStoresKey(t: Tally, idx: nat, item: Json, now: int)
    requires Storable(item)
    ensures HasExt(UpsertItem(t, idx, item, now).value.store.workers, KeyOf(item))
  {
    var ws' := UpsertItem(t, idx, item, now).value.store.workers;
    if HasExt(t.store.workers, KeyOf(item)) {
      KeepsRowsHasExt(t.store.workers, ws', KeyOf(item));
    } else {
      assert ws'[|t.store.workers|].extId == KeyOf(item);
    }
  }

  /** An item whose external id is already stored creates nothing. */
  lemma UpsertItemKnownKeyCreatesNothing(t: Tally, idx: nat, item: Json, now: int)
    requires UpsertItem(t, idx, item, now).Some?
    requires Storable(item) ==> HasExt(t.store.workers, KeyOf(item))
    ensures UpsertItem(t, idx, item, now).value.created == t.created
  {
  }

  /** Every item that would be stored names an external id already in `ws`. */
  predicate KnownKeys(ws: seq<Worker>, items: seq<Json>) {
    forall j :: 0 <= j < |items| && Storable(items[j]) ==> HasExt(ws, KeyOf(items[j]))
  }

  lemma KnownKeysLast(ws: seq<Worker>, items: seq<Json>)
    requires |items| > 0 && KnownKeys(ws, items)
    ensures KnownKeys(ws, items[..|items| - 1])
    ensures Storable(items[|items| - 1]) ==> HasExt(ws, KeyOf(items[|items| - 1]))
  {
    var n := |items| - 1;
    assert forall j :: 0 <= j < n ==> items[..n][j] == items[j];
  }

  /** When every stored item's external id is already present, a batch
      creates nothing. */
  lemma {:induction false} UpsertKnownKeysCreateNothing(s: Store, items: seq<Json>, now: int)
    requires UpsertItems(s, items, now).Some?
    requires KnownKeys(s.workers, items)
    ensures UpsertItems(s, items, now).value.created == 0
    decreases |items|
  {
    if |items| > 0 {
      var n := |items| - 1;
      var prefix := items[..n];
      UpsertItemsLast(s, items, now);
      KnownKeysLast(s.workers, items);
      UpsertKnownKeysCreateNothing(s, prefix, now);
      var t := UpsertItems(s, prefix, now).value;
      if Storable(items[n]) {
        KeepsRowsHasExt(s.workers, t.store.workers, KeyOf(items[n]));
      }
      UpsertItemKnownKeyCreatesNothing(t, n, items[n], now);
    }
  }

  /** Idempotence by external id: submitting the same batch a second time
      creates no row, updates every item the first run stored, and reports
      the same errors. */
  lemma UpsertAgainOnlyUpdates(s: Store, items: seq<Json>, now1: int, now2: int)
    requires UpsertItems(s, items, now1).Some?
    ensures var t := UpsertItems(s, items, now1).value;
      && UpsertItems(t.store, items, now2).Some?
      && UpsertItems(t.store, items, now2).value.created == 0
      && UpsertItems(t.store, items, now2).value.updated == t.created + t.updated
      && UpsertItems(t.store, items, now2).value.errors == t.errors
  {
    var t := UpsertItems(s, items, now1).value;
    UpsertErrorsIgnoreStore(s, t.store, items, now1, now2);
    UpsertStoresEveryKey(s, items, now1, t);
    UpsertKnownKeysCreateNothing(t.store, items, now2);
  }

  /** Error isolation: when one item of a batch lacks its `worker_id` and
      every other item can be stored, exactly that item fails, whatever its
      position, and all the others are created or updated. */
  lemma {:induction false} UpsertIsolatesOneBadItem(s: Store, items: seq<Json>, k: nat, now: int)
    requires k < |items| ==> items[k].JObj? && !Truthy(Field(items[k], "worker_id"))
    requires forall j :: 0 <= j < |items| && j != k ==> Storable(items[j])
    ensures UpsertItems(s, items, now).Some?
    ensures UpsertItems(s, items, now).value.errors == if k < |items| then [MissingFields(k)] else []
    ensures UpsertItems(s, items, now).value.created + UpsertItems(s, items, now).value.updated
         == if k < |items| then |items| - 1 else |items|
  {
    assert AllWritable(items);
    UpsertErrorsAreItemErrors(s, items, now);
    ItemErrorsIsolate(items, k);
  }

  /** Only the bad item raises an error of its own. */
  lemma {:induction false} ItemErrorsIsolate(items: seq<Json>, k: nat)
    requires k < |items| ==> items[k].JObj? && !Truthy(Field(items[k], "worker_id"))
    requires forall j :: 0 <= j < |items| && j != k ==> Storable(items[j])
    ensures ItemErrors(items) == if k < |items| then [MissingFields(k)] else []
    decreases |items|
  {
    if |items| > 0 {
      var n := |items| - 1;
      var prefix := items[..n];
      assert forall j :: 0 <= j < n ==> prefix[j] == items[j];
      ItemErrorsIsolate(prefix, k);
      var own := ItemError(n, items[n]);
      assert own == if n == k then Some(MissingFields(n)) else None;
      assert ItemErrors(items) == ItemErrors(prefix) + if n == k then [MissingFields(n)] else [];
    }
  }

  // ---------------------------------------------------------------------
  // Single creation

  /** The outcome of `create_worker`. */
  datatype CreateReply = CreatedWorker(row: Worker) | MissingData | AlreadyExists | CreateFailed

  /** `create_worker`: rejects a body without `worker_id` or `name` and an
      external id already stored, without inserting; otherwise inserts one
      row. A body that is not a dict, a `worker_id` the lookup cannot bind and
      a value the commit cannot bind end in a server error. */
  function CreateWorker(s: Store, body: Option<Json>, now: int): (r: (Store, CreateReply))
    ensures !r.1.CreatedWorker? ==> r.0 == s
    // `data.get` on a null or non-dict body raises before any check
    ensures body.None? || !body.value.JObj? ==> r == (s, CreateFailed)
    ensures body.Some? && body.value.JObj? ==>
      (r.1.MissingData? <==> !(Truthy(Field(body.value, "worker_id")) && Truthy(Field(body.value, "name"))))
    ensures r.1.AlreadyExists? <==> body.Some? && Accepted(body.value) && HasExt(s.workers, KeyOf(body.value))
    ensures r.1.CreatedWorker? <==> body.Some? && Storable(body.value) && !HasExt(s.workers, KeyOf(body.value))
    ensures r.1.CreatedWorker? ==>
      && r.0.workers == s.workers + [r.1.row] && r.0.log == s.log
      && r.1.row.id == |s.workers| + 1 && r.1.row.extId == KeyOf(body.value)
      && Stores(BindText(Field(body.value, "name")), Some(r.1.row.name))
      && Stores(BindText(Field(body.value, "email")), r.1.row.email)
      && Stores(BindText(Field(body.value, "phone")), r.1.row.phone)
      && r.1.row.face == Dumped(Field(body.value, "face_encoding"))
      && r.1.row.createdAt == Some(now)
    ensures Valid(s) ==> Valid(r.0)
  {
    if body.None? || !body.value.JObj? then (s, CreateFailed)
    else
      var data := body.value;
      if !Truthy(Field(data, "worker_id")) || !Truthy(Field(data, "name")) then (s, MissingData)
      else if !BindText(Field(data, "worker_id")).Text? then (s, CreateFailed)
      else if HasExt(s.workers, KeyOf(data)) then (s, AlreadyExists)
      else if !Storable(data) then (s, CreateFailed)
      else
        var w := NewRow(s.workers, data, now);
        (s.(workers := s.workers + [w]), CreatedWorker(w))
  }

  /** Creation is not repeatable: once a body has created a worker, the same
      body is refused as a duplicate and the store stays as it is. */
  lemma CreateTwiceRejects(s: Store, body: Option<Json>, now1: int, now2: int)
    requires CreateWorker(s, body, now1).1.CreatedWorker?
    ensures var s1 := CreateWorker(s, body, now1).0;
      CreateWorker(s1, body, now2) == (s1, AlreadyExists)
  {
    var s1 := CreateWorker(s, body, now1).0;
    var k := KeyOf(body.value);
    assert s1.workers[|s.workers|].extId == k;
    assert HasExt(s1.workers, k);
  }

  // ---------------------------------------------------------------------
  // Partial update by external id

  /** The keys an update request carries: for each of the four updatable
      columns, the value sent, or None when the key is absent. */
  datatype Patch = Patch(name: Option<Json>, email: Option<Json>, phone: Option<Json>, face: Option<Json>)

  /** `if key in data: ... data[key]`: Some(None) when the key is absent,
      Some(Some(v)) when present; None when either operator raises. */
  function ReadKey(data: Json, key: string): (r: Option<Option<Json>>)
    ensures data.JObj? ==> r == Some(if key in data.fields then Some(data.fields[key]) else None)
  {
    match Contains(data, key)
    case None => None
    case Some(present) =>
      if !present then Some(None)
      else match Index(data, key)
        case None => None
        case Some(v) => Some(Some(v))
  }

  /** The four membership tests of the handler, in source order. */
  function ReadPatch(data: Json): (r: Option<Patch>)
    ensures data.JObj? ==> r == Some(Patch(
      if "name" in data.fields then Some(data.fields["name"]) else None,
      if "email" in data.fields then Some(data.fields["email"]) else None,
      if "phone" in data.fields then Some(data.fields["phone"]) else None,
      if "face_encoding" in data.fields then Some(data.fields["face_encoding"]) else None))
    // on a list or string, `in` answers and `data[key]` raises, so only a body
    // holding none of the four keys reads, as the empty patch
    ensures !data.JObj? ==>
      (r.Some? <==> Contains(data, "name") == Some(false) && Contains(data, "email") == Some(false)
                    && Contains(data, "phone") == Some(false) && Contains(data, "face_encoding") == Some(false))
    ensures !data.JObj? && r.Some? ==> r.value == Patch(None, None, None, None)
  {
    match (ReadKey(data, "name"), ReadKey(data, "email"), ReadKey(data, "phone"), ReadKey(data, "face_encoding"))
    case (Some(n), Some(e), Some(p), Some(f)) => Some(Patch(n, e, p, f))
    case _ => None
  }

  /** The patch can be committed: a name sent binds to text (not null, since
      the column is NOT NULL) and an email or phone sent binds at all. */
  predicate Committable(p: Patch) {
    && (p.name.Some? ==> BindText(p.name.value).Text?)
    && (p.email.Some? ==> !BindText(p.email.value).Unbindable?)
    && (p.phone.Some? ==> !BindText(p.phone.value).Unbindable?)
  }

  /** The row after the assignments of a patch: a column changes only when
      its key was sent, and identity columns never change. */
  function ApplyPatch(w: Worker, p: Patch): (r: Worker)
    requires Committable(p)
    ensures r.id == w.id && r.extId == w.extId && r.createdAt == w.createdAt
    ensures p.name.None? ==> r.name == w.name
    ensures p.name.Some? ==> Stores(BindText(p.name.value), Some(r.name))
    ensures p.email.None? ==> r.email == w.email
    ensures p.email.Some? ==> Stores(BindText(p.email.value), r.email)
    ensures p.phone.None? ==> r.phone == w.phone
    ensures p.phone.Some? ==> Stores(BindText(p.phone.value), r.phone)
    ensures p.face.None? ==> r.face == w.face
    ensures p.face.Some? ==> r.face == Dumped(p.face.value)
  {
    w.(name := if p.name.Some? then BindText(p.name.value).s else w.name,
       email := if p.email.Some? then CellValue(BindText(p.email.value)) else w.email,
       phone := if p.phone.Some? then CellValue(BindText(p.phone.value)) else w.phone,
       face := if p.face.Some? then Dumped(p.face.value) else w.face)
  }

  /** The outcome of `update_worker_by_ext_id`. */
  datatype UpdateReply = UpdatedWorker(row: Worker) | WorkerNotFound | UpdateFailed

  /** `update_worker_by_ext_id`: not found for an unknown external id;
      otherwise only the columns whose keys the body carries change, in
      place. A body the handler cannot read, or a null name, ends in a
      server error and the store is unchanged. */
  function UpdateWorkerByExtId(s: Store, ext: string, body: Option<Json>): (r: (Store, UpdateReply))
    ensures r.1.WorkerNotFound? <==> !HasExt(s.workers, ext)
    ensures !r.1.UpdatedWorker? ==> r.0 == s
    ensures r.1.UpdatedWorker? ==>
      var i := FindExt(s.workers, ext).value;
      && r.0 == s.(workers := s.workers[i := r.1.row])
      && r.1.row.id == s.workers[i].id && r.1.row.extId == ext
      && r.1.row.createdAt == s.workers[i].createdAt
    ensures BodyOrEmpty(body).JObj? && r.1.UpdatedWorker? ==>
      var m, prev := BodyOrEmpty(body).fields, s.workers[FindExt(s.workers, ext).value];
      && ("name" !in m ==> r.1.row.name == prev.name)
      && ("name" in m ==> Stores(BindText(m["name"]), Some(r.1.row.name)))
      && ("email" !in m ==> r.1.row.email == prev.email)
      && ("email" in m ==> Stores(BindText(m["email"]), r.1.row.email))
      && ("phone" !in m ==> r.1.row.phone == prev.phone)
      && ("phone" in m ==> Stores(BindText(m["phone"]), r.1.row.phone))
      && ("face_encoding" !in m ==> r.1.row.face == prev.face)
      && ("face_encoding" in m ==> r.1.row.face == Dumped(m["face_encoding"]))
    ensures HasExt(s.workers, ext) && ReadPatch(BodyOrEmpty(body)).None? ==> r == (s, UpdateFailed)
    ensures HasExt(s.workers, ext) && ReadPatch(BodyOrEmpty(body)).Some? ==>
      (r.1.UpdateFailed? <==> !Committable(ReadPatch(BodyOrEmpty(body)).value))
    // a truthy body that is not a dict but holds none of the keys commits nothing
    ensures r.1.UpdatedWorker? && !BodyOrEmpty(body).JObj? ==> r.0 == s
    ensures Valid(s) ==> Valid(r.0)
  {
    var data := BodyOrEmpty(body);
    match FindExt(s.workers, ext)
    case None => (s, WorkerNotFound)
    case Some(i) =>
      match ReadPatch(data)
      case None => (s, UpdateFailed)
      case Some(p) =>
        if !Committable(p) then (s, UpdateFailed)
        else
          var w := ApplyPatch(s.workers[i], p);
          (s.(workers := s.workers[i := w]), UpdatedWorker(w))
  }

  // ---------------------------------------------------------------------
  // Lookups

  /** `get_workers`: every row's `to_dict`, in primary-key order. */
  function GetWorkers(s: Store, iso: int -> string): (r: seq<Json>)
    ensures |r| == |s.workers|
    ensures forall i :: 0 <= i < |r| ==> r[i] == WorkerToDict(s.workers[i], iso)
  {
    seq(|s.workers|, i requires 0 <= i < |s.workers| => WorkerToDict(s.workers[i], iso))
  }

  /** `get_worker`: the `to_dict` of the row with that primary key, or None
      for the 404. */
  function GetWorker(s: Store, id: nat, iso: int -> string): (r: Option<Json>)
    ensures r.Some? <==> exists i :: 0 <= i < |s.workers| && s.workers[i].id == id
    ensures r.Some? ==> exists i :: 0 <= i < |s.workers| && s.workers[i].id == id && r.value == WorkerToDict(s.workers[i], iso)
    ensures Valid(s) && 1 <= id <= |s.workers| ==> r == Some(WorkerToDict(s.workers[id - 1], iso))
    ensures Valid(s) && !(1 <= id <= |s.workers|) ==> r.None?
  {
    match FindId(s.workers, id)
    case None => None
    case Some(i) => Some(WorkerToDict(s.workers[i], iso))
  }

  /** In a valid store `get_workers` shows every external id once. */
  lemma GetWorkersDistinct(s: Store, iso: int -> string)
    requires Valid(s)
    ensures var r := GetWorkers(s, iso);
      forall i, j :: 0 <= i < j < |r| ==> r[i].fields["worker_id"] != r[j].fields["worker_id"]
  {
  }

  /** A worker just created is served by `get_worker` under its new key. */
  lemma CreatedWorkerIsFound(s: Store, body: Option<Json>, now: int, iso: int -> string)
    requires Valid(s) && CreateWorker(s, body, now).1.CreatedWorker?
    ensures var (s', reply) := CreateWorker(s, body, now);
      GetWorker(s', reply.row.id, iso) == Some(WorkerToDict(reply.row, iso))
  {
  }
}

=== FILE: wrappers.dfy ===
/** Optional values, used for nullable columns, absent request keys and
    operations that can fail without further detail. */
module Wrappers {

  datatype Option<+T> = None | Some(value: T)
}
